=== FILE: README.md ===
# Evolocity trajectory and residue overlays, modelled in Dafny

This project models the decision logic of evolocity's plotting helpers. It
covers three parts:

- **Residue overlay** (`residue_categories`). The plotted positions are either
  given or chosen automatically. The automatic choice repeatedly takes the
  global minimum of the residue-score matrix and overwrites it with +inf. It
  keeps collecting until it has `n_plot` distinct rows, then sorts them. With a
  reference observation, each position first goes through the map from
  ungapped reference position to alignment column. Every plotted position then
  gets one annotation holding each observation's aligned symbol at that column.
- **Path search** (`shortest_path`). The model has the guards that run before
  the graph search: the neighbour-graph corruption check, the velocity-graph
  presence check, the lookup of the negative graph, and the subtraction of the
  two graphs.
- **Path drawing** (`draw_path`). This covers the argument check, the embedding
  check, the reads of the embedding coordinates, and the marks drawn. There are
  `n - 1` headless arrows from each path point to the next, then one scatter of
  all `n` points layered above them.

Modules:

| module | file | contents |
|---|---|---|
| `Outcomes` | `outcomes.dfy` | the error causes, `Result`, `Option`, and Python/NumPy indexing with negative indices |
| `Scores` | `scores.dfy` | scores as finite reals or +inf, and `np.argmin` with `np.unravel_index` on a matrix |
| `Selection` | `selection.dfy` | the lowest-score selection loop and what it leaves behind |
| `Alignment` | `alignment.dfy` | the reference-position map, and the symbols read at one position |
| `Categories` | `categories.dfy` | `residue_categories` as a whole |
| `Paths` | `paths.dfy` | the guards of `shortest_path`, and `draw_path` |

The neighbour check of `shortest_path` (line 17) takes the minimum, over the
rows of the distance matrix, of the number of positive distances in each row.
It rejects the graph as soon as any single row has no positive distance, and
the minimum itself fails when the matrix has no rows. `Paths.ShortestPath`
states exactly this: `CorruptedNeighbors` holds iff some row has no positive
entry.

## Model

| member | source | states |
|---|---|---|
| Outcomes.WrapIndex | evolocity/plotting/evolocity_plotting.py:170-174 | a read `s[i]` succeeds iff `-len <= i < len`; a non-negative index is itself, a negative one counts back from the end |
| Scores.FirstMin | evolocity/plotting/evolocity_plotting.py:159 | the chosen index holds a value no element undercuts, and every earlier element is strictly larger (first occurrence of the minimum) |
| Scores.ArgMin | evolocity/plotting/evolocity_plotting.py:159 | the cell is a global minimum; every cell in an earlier row, and every earlier cell in its row, is strictly larger (row-major first occurrence); its row has the smallest row minimum, the first such row |
| Scores.ArgMinComesFirst | evolocity/plotting/evolocity_plotting.py:159 | the argmin cell comes before every other cell in argmin order: a smaller score, or an equal score earlier in row-major order |
| Selection.Consume | evolocity/plotting/evolocity_plotting.py:159-160 | the step picks the argmin cell and sets exactly that cell to +inf; every other cell keeps its score |
| Selection.ExhaustedScanIsFixpoint | evolocity/plotting/evolocity_plotting.py:158-160 | once every score is +inf the step returns cell (0, 0) and leaves the matrix unchanged, so the loop cannot make further progress |
| Selection.ExhaustedPicksUnseenRowZero | evolocity/plotting/evolocity_plotting.py:158-165 | while rows remain to be collected within the reachable bound, a step that meets +inf lands on row 0, which is then still unseen and has no finite score |
| Selection.NewRowComesNext | evolocity/plotting/evolocity_plotting.py:159-165 | the first cell taken in a not-yet-seen row is that row's first minimum, and that row precedes every other unseen row (smaller minimum, ties to the lower row) |
| Selection.FreshPick | evolocity/plotting/evolocity_plotting.py:158-160 | while rows remain to be collected, each step takes a cell not taken before; it meets +inf only when nothing finite is left, and then takes cell (0, 0) of an uncollected row 0 as the last row needed |
| Selection.PrefixStep | evolocity/plotting/evolocity_plotting.py:159-160 | the cells taken so far stay the first cells in argmin order: the new cell comes after all of them, and every finite cell before it was already taken |
| Selection.MissingAtPick | evolocity/plotting/evolocity_plotting.py:159-161 | a step whose category has no symbol is at the first missing cell: every finite cell before it has a symbol, and those cells cover fewer than `n_plot` rows |
| Selection.CompletedScanMissesNothing | evolocity/plotting/evolocity_plotting.py:155-167 | a scan that collected its `n_plot` rows never passes a first missing cell: none exists |
| Selection.Scan | evolocity/plotting/evolocity_plotting.py:155-167 | the loop either stops at the first missing cell, with that cell's column (a column with no vocabulary symbol), or ends with at least `n_plot` rows collected; then each collected row precedes every later and every uncollected row, every consumed cell is at +inf and every other cell unchanged, and the consumed cells are the first ones in argmin order, the last one opening a new row |
| Selection.SortedRows | evolocity/plotting/evolocity_plotting.py:168 | `sorted(pos_seen)`: strictly increasing, the same elements as the set, and as many |
| Selection.LowestRowsUnique | evolocity/plotting/evolocity_plotting.py:155-168 | the ascending rows that the scan collects are determined by the scores and `n_plot` alone: two row lists that both qualify are equal |
| Selection.SelectLowest | evolocity/plotting/evolocity_plotting.py:155-168 | the argmin error iff `n_plot > 0` and the matrix has no cells; the missing-symbol error iff a first missing cell exists (a cell with no symbol for its category, finite or the exhausted pick (0, 0), with every finite cell before it in argmin order having a symbol and covering fewer than `n_plot` rows), and then it names that cell's column; no other error; on success: the consumed cells, in order, are the finite cells in argmin order up to the first cell of the last row collected (the +inf cell (0, 0) when the finite cells run out), none of them lacking a symbol; exactly `max(n_plot, 0)` rows in ascending order, each preceding every row left out; the final matrix is the input with exactly the visited cells at +inf, each visited cell lies in a chosen row, and each chosen row's first minimum was visited; with `verbose`, one log line per new row, ranked from 1 in collection order, with its symbol and 1-based position |
| Alignment.Ungap | evolocity/plotting/evolocity_plotting.py:148-150 | the residues of an aligned sequence contain no gap and are no longer than it |
| Alignment.UngapResidues | evolocity/plotting/evolocity_plotting.py:148-153 | the residues `Ungap` keeps are exactly the non-gap characters in order: mapping the alignment against them succeeds, residue `k` sits in the `k`-th non-gap column, and every non-gap column is covered |
| Alignment.Pos2Msa | evolocity/plotting/evolocity_plotting.py:144-153 | succeeds iff the ungapped alignment is a prefix of the raw reference; fails with the index error exactly when the raw reference is a proper prefix of the ungapped alignment, and with the consistency assertion otherwise; on success the keys are exactly the ungapped positions, each mapped to a non-gap column holding the same residue as the raw reference, columns increasing, every residue column covered |
| Alignment.Pos2MsaExample | evolocity/plotting/evolocity_plotting.py:147-153 | `AC` aligned as `A-C` maps 0 to 0 and 1 to 2; `AG` against `A-C` fails the assertion; `A` against `A-C` runs out of reference |
| Alignment.SymbolsAt | evolocity/plotting/evolocity_plotting.py:170-174 | with a reference map: a key error iff the position is unmapped, otherwise every observation's symbol at the mapped column, succeeding iff every aligned sequence reaches it and else an index error naming that column; without a map: every observation's symbol at the raw position (negative counts from the end), succeeding iff it is in range for all and else an index error naming the position |
| Alignment.ReferenceRowReproducesRaw | evolocity/plotting/evolocity_plotting.py:170-174 | in reference mode the symbol read for the reference observation at position `p` is the raw reference residue `p` |
| Categories.ReferenceMap | evolocity/plotting/evolocity_plotting.py:144-153 | no map without a reference; the reference is a position among the observations, a negative one counting from the end; one outside the observations fails; otherwise it succeeds iff that observation's ungapped alignment is a prefix of its raw sequence, and then it is a column map |
| Categories.ReferenceAnnotations | evolocity/plotting/evolocity_plotting.py:170-174 | annotations read through the reference's map reproduce the reference observation's raw residues at their positions |
| Categories.AnnotateAll | evolocity/plotting/evolocity_plotting.py:170-174 | succeeds iff every position can be read, fails with the error of the first unreadable position, and otherwise gives one annotation per position in order, with that position's symbols |
| Categories.BuildOverlay | evolocity/plotting/evolocity_plotting.py:170-174 | succeeds iff every plotted position can be read, failing only with a key or index error, that of the first unreadable position; on success one annotation per position in order, with its symbols and the choice passed in; with a reference, its own annotation reproduces its raw residues |
| Categories.ResidueCategories | evolocity/plotting/evolocity_plotting.py:136-176 | reference errors come first; given positions are plotted as given, without a scan, and succeed iff every one can be read, otherwise failing with the first unreadable one's error; in automatic mode the argmin error iff rows are asked for from a matrix with no cells, the missing-symbol error iff the scan meets a first missing cell, naming that cell's column, any other error is that of the first unreadable lowest row, and success whenever the matrix has cells (when rows are asked for), no first missing cell exists and every lowest row can be read; chosen positions are the selection's lowest rows in ascending order, with the consumed cells in argmin order and, with `verbose`, one log line per new row in collection order (none otherwise); every annotation holds the symbols at its position; with a reference, the reference's own annotation reproduces its raw residues |
| Paths.PositiveCount | evolocity/plotting/evolocity_plotting.py:17 | the number of positive distances in a row never exceeds its length |
| Paths.PositiveCountZero | evolocity/plotting/evolocity_plotting.py:17 | a row has zero positive distances iff none of its entries is positive |
| Paths.MinPositiveCount | evolocity/plotting/evolocity_plotting.py:17 | the minimum positive count over the rows is zero iff some row has no positive distance |
| Paths.SignedGraph | evolocity/plotting/evolocity_plotting.py:28 | the signed matrix has the graphs' shape, and adding back the negative graph gives the positive one entrywise |
| Paths.ShortestPath | evolocity/plotting/evolocity_plotting.py:11-38 | empty-neighbours error iff no rows; corruption error iff some row has no positive distance; missing-graph error iff the neighbours pass and `<vkey>_graph` is absent; key error iff that graph is present and `<vkey>_graph_neg` absent; shape error iff both are present with different shapes; no-path error iff the search on the signed matrix finds none; a path is returned exactly when all checks pass and the search finds one, and it is the search's answer on the signed matrix |
| Paths.Coordinates | evolocity/plotting/evolocity_plotting.py:73-74 | succeeds iff every path index is in range (negative counts from the end), then gives one embedding point per path node in order; otherwise fails on an out-of-range index of the path |
| Paths.PathMarks | evolocity/plotting/evolocity_plotting.py:76-85 | `n - 1` arrows (none for an empty path), arrow `k` running from point `k` to point `k + 1`, then one scatter of all the points on a higher layer |
| Paths.ArrowsRetracePath | evolocity/plotting/evolocity_plotting.py:76-85 | for two or more points, the arrows' starts followed by the last arrow's end are exactly the path's points, the ones the scatter shows |
| Paths.ResolvedPath | evolocity/plotting/evolocity_plotting.py:56-62 | the missing-argument error iff no path and a missing endpoint; a given path is used as is; otherwise the shortest-path result |
| Paths.DrawPath | evolocity/plotting/evolocity_plotting.py:41-87 | the missing-argument error iff no path and a missing endpoint; search errors next; then the missing-basis error; then an out-of-range path node; otherwise it succeeds with exactly the path's marks over its embedding coordinates: `n - 1` arrows and one scatter of the `n` points |
| Paths.DrawnArrowsFollowPath | evolocity/plotting/evolocity_plotting.py:73-85 | on a drawn path of two or more nodes, the arrows' starts and the last arrow's end are the embedding points of the path's nodes, in order |

## Left out

- `residue_scores` is not part of this model. Its percentile filter and normalisation are floating-point plotting, outside the modelled core.
- The graph search is a parameter, `PathSearch`. It stands for building a graph from the sparse matrix and calling the shortest-path routine. Its tie-breaking and its undirected-graph construction belong to the graph library; `None` stands for any exception it raises.
- `get_neighs` is not part of this model. The neighbour-distance matrix is given directly as rows of reals.
- Rendering is left out: figure and axes creation, colours, sizes, the UMAP plot per position, and `savefig`. Only the data that decides what is drawn is modelled.
- Scores are reals or +inf. NaN and -inf cannot occur in the model, and float rounding is not modelled. The coordinates of `draw_path` are likewise exact reals.
- Selection.SelectLowest: it returns the overwritten score matrix instead of mutating the caller's array in place. The matrix state is still visible in `after`.
- Selection.SelectLowest: it requires `n_plot` to be at most the number of rows the scan can reach: every row with a finite score, plus row 0 once nothing finite is left. Beyond that bound the source does one of two things. If some finite cell's column, or column 0, has no symbol, it raises `KeyError` once the scan gets there. Otherwise it loops for ever on cell (0, 0), as `ExhaustedScanIsFixpoint` shows. Neither outcome is modelled.
- Selection.SelectLowest: on a missing vocabulary symbol it returns only the error. In the source, the cells already overwritten stay overwritten, and the log lines already printed stay printed.
- Categories.ResidueCategories: on a failure part-way through the positions, it returns only the error. The source has already stored the earlier positions' annotations and plots, and in automatic mode it has already overwritten the caller's score matrix in place and printed the log lines.
- Categories.ResidueCategories: automatic mode inherits `Selection.SelectLowest`'s requirement that `n_plot` be at most the number of reachable rows. Beyond it the source raises `KeyError` or loops for ever, and neither is modelled.
- Categories.ReferenceMap: the reference is an integer position among the observations, negative ones counting from the end, as pandas falls back to positions on the string-labelled observation index. Looking the reference up by a string label is not modelled.
- Categories.ResidueCategories: the annotation is named by its position; the `pos<position>` column-name string and the `namespace` file name are not modelled.
- Paths.Coordinates: every embedding row is a point with at least two coordinates. An embedding with fewer than two columns is not modelled.
- Paths.DrawPath: the matplotlib axes creation between the search and the basis check has no observable effect in the model.

=== FILE: alignment.dfy ===
/**
  The reference-alignment map of the residue overlay: for each residue of the
  reference sequence, the column of the multiple-sequence alignment that
  holds it, and the per-observation symbol read at a position.
 */
module Alignment {
  import opened Outcomes

  const Gap: char := '-'

  /** The residues of an aligned sequence in order, gap columns dropped. */
  function Ungap(msa: string): (u: string)
    ensures |u| <= |msa|
    ensures forall k :: 0 <= k < |u| ==> u[k] != Gap
  {
    if |msa| == 0 then []
    else Ungap(msa[..|msa| - 1]) + (if msa[|msa| - 1] == Gap then [] else [msa[|msa| - 1]])
  }

  predicate IsPrefix(p: string, s: string) {
    |p| <= |s| && s[..|p|] == p
  }

  /**
    `m` maps each ungapped position of `msa` to its column: the keys are
    0 .. (number of residues) - 1, each key's column holds that residue of
    `seqRef` and is never a gap, columns increase with the position, and
    every residue column is the image of some position.
   */
  ghost predicate ColumnMap(seqRef: string, msa: string, m: map<nat, nat>)
  {
    && (forall k: nat :: k in m <==> k < |Ungap(msa)|)
    && (forall k :: k in m ==>
          && m[k] < |msa|
          && msa[m[k]] != Gap
          && k < |seqRef|
          && msa[m[k]] == seqRef[k])
    && (forall k1, k2 :: k1 in m && k2 in m && k1 < k2 ==> m[k1] < m[k2])
    && (forall c :: 0 <= c < |msa| && msa[c] != Gap ==> c in m.Values)
  }

  /**
    Map from ungapped reference position to alignment column, built by
    scanning `msa` left to right. A residue of `msa` beyond the end of
    `seqRef` raises an index error, one that differs from `seqRef` fails the
    consistency assertion; the first such column decides which.
   */
  function Pos2Msa(seqRef: string, msa: string): (r: Result<map<nat, nat>>)
    // it succeeds exactly when the ungapped alignment starts the raw reference
    ensures r.Ok? <==> IsPrefix(Ungap(msa), seqRef)
    ensures r.Err? ==> r.error == ReferenceTooShort || r.error == AlignmentMismatch
    ensures r == Err(ReferenceTooShort) <==>
              |seqRef| < |Ungap(msa)| && seqRef == Ungap(msa)[..|seqRef|]
    ensures r.Ok? ==> ColumnMap(seqRef, msa, r.value)
  {
    if |msa| == 0 then Ok(map[])
    else
      var init := msa[..|msa| - 1];
      var last := msa[|msa| - 1];
      var prev := Pos2Msa(seqRef, init);
      var k := |Ungap(init)|;
      PrefixExtends(Ungap(init), if last == Gap then [] else [last], seqRef);
      if prev.Err? then prev
      else if last == Gap then
        ColumnMapSkipsGap(seqRef, msa, prev.value);
        prev
      else if k >= |seqRef| then Err(ReferenceTooShort)
      else if last != seqRef[k] then Err(AlignmentMismatch)
      else
        ColumnMapExtends(seqRef, msa, prev.value);
        Ok(prev.value[k := |msa| - 1])
  }

  lemma ColumnMapSkipsGap(seqRef: string, msa: string, m: map<nat, nat>)
    requires |msa| > 0 && msa[|msa| - 1] == Gap
    requires ColumnMap(seqRef, msa[..|msa| - 1], m)
    ensures ColumnMap(seqRef, msa, m)
  {
    var init := msa[..|msa| - 1];
    assert Ungap(msa) == Ungap(init);
    assert forall c :: 0 <= c < |msa| - 1 ==> msa[c] == init[c];
  }

  lemma ColumnMapExtends(seqRef: string, msa: string, m: map<nat, nat>)
    requires |msa| > 0 && msa[|msa| - 1] != Gap
    requires ColumnMap(seqRef, msa[..|msa| - 1], m)
    requires |Ungap(msa[..|msa| - 1])| < |seqRef|
    requires msa[|msa| - 1] == seqRef[|Ungap(msa[..|msa| - 1])|]
    ensures ColumnMap(seqRef, msa, m[|Ungap(msa[..|msa| - 1])| := |msa| - 1])
  {
    var init := msa[..|msa| - 1];
    var k := |Ungap(init)|;
    var m' := m[k := |msa| - 1];
    assert |Ungap(msa)| == k + 1;
    assert forall c :: 0 <= c < |msa| - 1 ==> msa[c] == init[c];
    assert k !in m;
    forall c | 0 <= c < |msa| && msa[c] != Gap ensures c in m'.Values {
      if c < |msa| - 1 {
        var j :| j in m && m[j] == c;
        assert m'[j] == c;
      } else {
        assert m'[k] == c;
      }
    }
  }

  /** How a prefix test on `u + v` splits into one on `u` and the rest. */
  lemma PrefixExtends(u: string, v: string, s: string)
    ensures IsPrefix(u + v, s) ==> IsPrefix(u, s)
    ensures IsPrefix(u, s) && |v| == 1 ==>
              (IsPrefix(u + v, s) <==> |u| < |s| && s[|u|] == v[0])
    ensures |s| < |u| && s == u[..|s|] ==> |s| < |u + v| && s == (u + v)[..|s|]
    ensures !IsPrefix(u, s) && !(|s| < |u| && s == u[..|s|]) ==> !(|s| < |u + v| && s == (u + v)[..|s|])
    ensures IsPrefix(u, s) && |u| == |s| && |v| == 1 ==> |s| < |u + v| && s == (u + v)[..|s|]
  {
    if IsPrefix(u + v, s) {
      assert s[..|u|] == (u + v)[..|u|];
    }
    if IsPrefix(u, s) && |v| == 1 && |u| < |s| && s[|u|] == v[0] {
      assert s[..|u + v|] == s[..|u|] + [s[|u|]];
    }
    if !IsPrefix(u, s) && !(|s| < |u| && s == u[..|s|]) && |s| < |u + v| {
      if |s| < |u| {
        assert (u + v)[..|s|] == u[..|s|];
      } else {
        assert (u + v)[..|u|] == u;
      }
    }
    if IsPrefix(u, s) && |u| == |s| && |v| == 1 {
      assert (u + v)[..|s|] == u;
    }
  }

  /**
    `Ungap` keeps exactly the residues, in order: mapping an aligned sequence
    against its own residues succeeds, and residue `k` sits in the `k`-th
    non-gap column, every non-gap column accounted for.
   */
  lemma UngapResidues(msa: string)
    ensures Pos2Msa(Ungap(msa), msa).Ok?
    ensures ColumnMap(Ungap(msa), msa, Pos2Msa(Ungap(msa), msa).value)
  {
    var u := Ungap(msa);
    assert u[..|u|] == u;
    assert IsPrefix(u, u);
  }

  /**
    The symbols of one overlay column: for every aligned observation, the
    character at `pos`, read through the reference map when one is given.
    A position the map lacks is a key error; a column outside an
    observation's aligned sequence is an index error.
   */
  function SymbolsAt(seqsMsa: seq<string>, pos: int, pos2msa: Option<map<nat, nat>>): (r: Result<string>)
    ensures pos2msa.Some? && (pos < 0 || pos as nat !in pos2msa.value) ==> r == Err(UnknownPosition(pos))
    ensures r.Err? ==> r.error.UnknownPosition? || r.error.IndexOutOfRange?
    ensures r.Ok? ==> |r.value| == |seqsMsa|
    // with a reference map: the mapped column of every observation
    ensures r.Ok? && pos2msa.Some? ==>
              pos >= 0 && pos as nat in pos2msa.value &&
              forall i :: 0 <= i < |seqsMsa| ==>
                pos2msa.value[pos as nat] < |seqsMsa[i]| && r.value[i] == seqsMsa[i][pos2msa.value[pos as nat]]
    // without one: the raw column, counted from the back when negative
    ensures r.Ok? && pos2msa.None? ==>
              forall i :: 0 <= i < |seqsMsa| ==>
                WrapIndex(|seqsMsa[i]|, pos).Some? && r.value[i] == seqsMsa[i][WrapIndex(|seqsMsa[i]|, pos).value]
    // it fails only when some observation is too short for the column
    ensures pos2msa.None? ==> (r.Ok? <==> forall i :: 0 <= i < |seqsMsa| ==> -|seqsMsa[i]| <= pos < |seqsMsa[i]|)
    ensures pos2msa.Some? && pos >= 0 && pos as nat in pos2msa.value ==>
              (r.Ok? <==> forall i :: 0 <= i < |seqsMsa| ==> pos2msa.value[pos as nat] < |seqsMsa[i]|)
    // the index error names the column that was out of range
    ensures pos2msa.Some? && pos >= 0 && pos as nat in pos2msa.value && r.Err? ==>
              r.error == IndexOutOfRange(pos2msa.value[pos as nat])
    ensures pos2msa.None? && r.Err? ==> r.error == IndexOutOfRange(pos)
  {
    if pos2msa.Some? && (pos < 0 || pos as nat !in pos2msa.value) then Err(UnknownPosition(pos))
    else
      var col := if pos2msa.Some? then pos2msa.value[pos as nat] as int else pos;
      if forall i :: 0 <= i < |seqsMsa| ==> WrapIndex(|seqsMsa[i]|, col).Some? then
        Ok(seq(|seqsMsa|, i requires 0 <= i < |seqsMsa| => seqsMsa[i][WrapIndex(|seqsMsa[i]|, col).value]))
      else
        Err(IndexOutOfRange(col))
  }

  /**
    In reference mode the overlay reproduces the reference itself: the symbol
    read for the reference observation at position `pos` is the residue
    `seqRef[pos]`.
   */
  lemma ReferenceRowReproducesRaw(seqRef: string, seqsMsa: seq<string>, ref: nat, pos: int)
    requires ref < |seqsMsa|
    requires Pos2Msa(seqRef, seqsMsa[ref]).Ok?
    requires SymbolsAt(seqsMsa, pos, Some(Pos2Msa(seqRef, seqsMsa[ref]).value)).Ok?
    ensures 0 <= pos < |seqRef|
    ensures SymbolsAt(seqsMsa, pos, Some(Pos2Msa(seqRef, seqsMsa[ref]).value)).value[ref] == seqRef[pos]
  {
  }

  /** The worked case: raw `AC` aligned as `A-C` maps 0 to column 0 and 1 to column 2. */
  lemma Pos2MsaExample()
    ensures Pos2Msa("AC", "A-C") == Ok(map[0 := 0, 1 := 2])
    ensures Pos2Msa("AG", "A-C") == Err(AlignmentMismatch)
    ensures Pos2Msa("A", "A-C") == Err(ReferenceTooShort)
  {
    assert "A-C"[..2] == "A-";
    assert "A-"[..1] == "A";
    assert "A"[..0] == "";
  }
}

=== FILE: categories.dfy ===
/**
  The residue overlay as a whole: optionally map positions through a
  reference alignment, choose the positions (given, or the lowest-scoring
  rows), and derive for each one the column of symbols the embedding plot
  is coloured by. Plotting itself is not modelled.
 */
module Categories {
  import opened Outcomes
  import opened Scores
  import opened Selection
  import opened Alignment

  /** The per-observation fields the overlay reads: raw and aligned sequences. */
  datatype Observations = Observations(seqs: seq<string>, seqsMsa: seq<string>)

  /** The observation annotation `pos<position>`: each observation's symbol there. */
  datatype Annotation = Annotation(position: int, symbols: string)

  /**
    The overlay's result: one annotation per plotted position, and the scan
    that chose the positions when none were given.
   */
  datatype Overlay = Overlay(annotations: seq<Annotation>, choice: Option<Choice>)

  /**
    The observation an integer reference names. The observation index holds
    string labels, so pandas falls back to positions: a negative reference
    counts from the end.
   */
  function ReferenceRow(obs: Observations, ref: int): Option<nat> {
    WrapIndex(|obs.seqs|, ref)
  }

  /**
    The reference map when a reference observation is named: its raw and
    aligned sequences are looked up, then scanned.
   */
  function ReferenceMap(obs: Observations, reference: Option<int>): (r: Result<Option<map<nat, nat>>>)
    requires |obs.seqs| == |obs.seqsMsa|
    ensures reference.None? ==> r == Ok(None)
    ensures reference.Some? && ReferenceRow(obs, reference.value).None? ==>
              r == Err(UnknownObservation(reference.value))
    ensures reference.Some? ==>
              (r.Ok? <==> && ReferenceRow(obs, reference.value).Some?
                          && var i := ReferenceRow(obs, reference.value).value;
                             IsPrefix(Ungap(obs.seqsMsa[i]), obs.seqs[i]))
    ensures reference.Some? && r.Ok? ==>
              && ReferenceRow(obs, reference.value).Some? && r.value.Some?
              && var i := ReferenceRow(obs, reference.value).value;
                 ColumnMap(obs.seqs[i], obs.seqsMsa[i], r.value.value)
    ensures r.Err? ==> r.error == UnknownObservation(reference.value) || r.error == ReferenceTooShort ||
                       r.error == AlignmentMismatch
  {
    match reference
    case None => Ok(None)
    case Some(ref) =>
      match ReferenceRow(obs, ref)
      case None => Err(UnknownObservation(ref))
      case Some(i) =>
        var m := Pos2Msa(obs.seqs[i], obs.seqsMsa[i]);
        if m.Err? then Err(m.error) else Ok(Some(m.value))
  }

  function AsInts(s: seq<nat>): (r: seq<int>)
    ensures |r| == |s| && forall k :: 0 <= k < |s| ==> r[k] == s[k] as int
  {
    seq(|s|, k requires 0 <= k < |s| => s[k] as int)
  }

  /**
    Every annotation, read for the reference observation, gives back the raw
    reference residue at the annotation's position.
   */
  ghost predicate ReproducesReference(obs: Observations, ref: nat, annotations: seq<Annotation>)
    requires ref < |obs.seqs|
  {
    forall k :: 0 <= k < |annotations| ==>
      && 0 <= annotations[k].position < |obs.seqs[ref]|
      && ref < |annotations[k].symbols|
      && annotations[k].symbols[ref] == obs.seqs[ref][annotations[k].position]
  }

  lemma ReferenceAnnotations(obs: Observations, ref: int, annotations: seq<Annotation>)
    requires |obs.seqs| == |obs.seqsMsa|
    requires ReferenceMap(obs, Some(ref)).Ok?
    requires forall k :: 0 <= k < |annotations| ==>
               SymbolsAt(obs.seqsMsa, annotations[k].position, ReferenceMap(obs, Some(ref)).value)
                 == Ok(annotations[k].symbols)
    ensures ReferenceRow(obs, ref).Some? && ReproducesReference(obs, ReferenceRow(obs, ref).value, annotations)
  {
    var i := ReferenceRow(obs, ref).value;
    forall k | 0 <= k < |annotations|
      ensures && 0 <= annotations[k].position < |obs.seqs[i]|
              && i < |annotations[k].symbols|
              && annotations[k].symbols[i] == obs.seqs[i][annotations[k].position]
    {
      ReferenceRowReproducesRaw(obs.seqs[i], obs.seqsMsa, i, annotations[k].position);
    }
  }

  /** `k` is the first plotted position whose symbols cannot be read. */
  predicate FirstUnreadable(seqsMsa: seq<string>, plotted: seq<int>, pos2msa: Option<map<nat, nat>>, k: int)
  {
    && 0 <= k < |plotted|
    && SymbolsAt(seqsMsa, plotted[k], pos2msa).Err?
    && forall j :: 0 <= j < k ==> SymbolsAt(seqsMsa, plotted[j], pos2msa).Ok?
  }

  /**
    The annotation of every position in turn; the first position that
    cannot be read stops the loop with its error.
   */
  method AnnotateAll(seqsMsa: seq<string>, plotted: seq<int>, pos2msa: Option<map<nat, nat>>)
    returns (r: Result<seq<Annotation>>)
    ensures r.Ok? <==> forall k :: 0 <= k < |plotted| ==> SymbolsAt(seqsMsa, plotted[k], pos2msa).Ok?
    ensures r.Err? ==> exists k :: FirstUnreadable(seqsMsa, plotted, pos2msa, k) &&
                                   SymbolsAt(seqsMsa, plotted[k], pos2msa) == Err(r.error)
    ensures r.Ok? ==> |r.value| == |plotted|
    ensures r.Ok? ==> forall k :: 0 <= k < |plotted| ==>
              r.value[k].position == plotted[k] && SymbolsAt(seqsMsa, plotted[k], pos2msa) == Ok(r.value[k].symbols)
  {
    var annotations: seq<Annotation> := [];
    var k := 0;
    while k < |plotted|
      invariant 0 <= k <= |plotted| && |annotations| == k
      invariant forall j :: 0 <= j < k ==>
                  annotations[j].position == plotted[j] &&
                  SymbolsAt(seqsMsa, plotted[j], pos2msa) == Ok(annotations[j].symbols)
    {
      var symbols := SymbolsAt(seqsMsa, plotted[k], pos2msa);
      if symbols.Err? {
        return Err(symbols.error);
      }
      annotations := annotations + [Annotation(plotted[k], symbols.value)];
      k := k + 1;
    }
    return Ok(annotations);
  }

  /**
    The annotations of the plotted positions gathered into the overlay;
    with a reference, its own annotation reproduces its raw residues.
   */
  method BuildOverlay(obs: Observations, plotted: seq<int>, reference: Option<int>, choice: Option<Choice>)
    returns (r: Result<Overlay>)
    requires |obs.seqs| == |obs.seqsMsa| && ReferenceMap(obs, reference).Ok?
    ensures r.Ok? <==> forall k :: 0 <= k < |plotted| ==>
              SymbolsAt(obs.seqsMsa, plotted[k], ReferenceMap(obs, reference).value).Ok?
    ensures r.Err? ==> r.error.UnknownPosition? || r.error.IndexOutOfRange?
    ensures r.Err? ==> exists k :: FirstUnreadable(obs.seqsMsa, plotted, ReferenceMap(obs, reference).value, k) &&
                                   SymbolsAt(obs.seqsMsa, plotted[k], ReferenceMap(obs, reference).value) == Err(r.error)
    ensures r.Ok? ==> r.value.choice == choice && |r.value.annotations| == |plotted|
    ensures r.Ok? ==> forall k :: 0 <= k < |plotted| ==>
              && r.value.annotations[k].position == plotted[k]
              && SymbolsAt(obs.seqsMsa, plotted[k], ReferenceMap(obs, reference).value)
                   == Ok(r.value.annotations[k].symbols)
    ensures r.Ok? && reference.Some? ==>
              && ReferenceRow(obs, reference.value).Some?
              && ReproducesReference(obs, ReferenceRow(obs, reference.value).value, r.value.annotations)
  {
    var pos2msa := ReferenceMap(obs, reference).value;
    var annotations := AnnotateAll(obs.seqsMsa, plotted, pos2msa);
    if annotations.Err? {
      var k :| FirstUnreadable(obs.seqsMsa, plotted, pos2msa, k) &&
               SymbolsAt(obs.seqsMsa, plotted[k], pos2msa) == Err(annotations.error);
      return Err(annotations.error);
    }
    if reference.Some? {
      ReferenceAnnotations(obs, reference.value, annotations.value);
    }
    return Ok(Overlay(annotations.value, choice));
  }

  /**
    The overlay's data. Errors surface in program order: the reference
    check, then the automatic choice, then the first position whose symbols
    cannot be read.
   */
  method ResidueCategories(obs: Observations, scores: seq<seq<Score>>, cols: nat, vocab: map<nat, string>,
                           positions: Option<seq<int>>, nPlot: int, reference: Option<int>, verbose: bool)
    returns (r: Result<Overlay>)
    requires |obs.seqs| == |obs.seqsMsa|
    requires Rectangular(scores, cols)
    requires positions.None? ==> nPlot <= 0 || |scores| == 0 || cols == 0 || nPlot <= Reachable(scores)
    // the reference check comes before anything else
    ensures ReferenceMap(obs, reference).Err? ==> r == Err(ReferenceMap(obs, reference).error)
    // given positions: plotted as given, the score matrix is not scanned, and
    // the call succeeds exactly when every position can be read
    ensures r.Ok? && positions.Some? ==>
              r.value.choice.None? && |r.value.annotations| == |positions.value| &&
              forall k :: 0 <= k < |positions.value| ==> r.value.annotations[k].position == positions.value[k]
    ensures positions.Some? && ReferenceMap(obs, reference).Ok? ==>
              (r.Ok? <==> forall k :: 0 <= k < |positions.value| ==>
                            SymbolsAt(obs.seqsMsa, positions.value[k], ReferenceMap(obs, reference).value).Ok?)
    // given positions: a failure is that of the first position that cannot be read
    ensures positions.Some? && ReferenceMap(obs, reference).Ok? && r.Err? ==>
              exists k :: FirstUnreadable(obs.seqsMsa, positions.value, ReferenceMap(obs, reference).value, k) &&
                          SymbolsAt(obs.seqsMsa, positions.value[k], ReferenceMap(obs, reference).value) == Err(r.error)
    // chosen positions: the scan's rows, in ascending order
    ensures r.Ok? && positions.None? ==>
              && r.value.choice.Some?
              && LowestRows(scores, nPlot, r.value.choice.value.positions)
              && ConsumedCells(scores, cols, r.value.choice.value.positions, r.value.choice.value.visited,
                               r.value.choice.value.after)
              && ScanTrace(scores, nPlot, r.value.choice.value.visited)
              && LogLines(scores, vocab, verbose, r.value.choice.value.positions, r.value.choice.value.log)
              && |r.value.annotations| == |r.value.choice.value.positions|
              && forall k :: 0 <= k < |r.value.annotations| ==>
                   r.value.annotations[k].position == r.value.choice.value.positions[k] as int
    // chosen positions: the argmin of an empty matrix fails exactly when rows are asked for
    ensures r == Err(EmptyScores) <==>
              ReferenceMap(obs, reference).Ok? && positions.None? && 0 < nPlot && (|scores| == 0 || cols == 0)
    // chosen positions: a missing symbol fails exactly when the scan meets one before it is done
    ensures ReferenceMap(obs, reference).Ok? && positions.None? ==>
              (r.Err? && r.error.MissingSymbol? <==> exists x :: FirstMissing(scores, cols, vocab, nPlot, x))
    // and it names the column of that first missing cell
    ensures ReferenceMap(obs, reference).Ok? && positions.None? && r.Err? && r.error.MissingSymbol? ==>
              exists x :: FirstMissing(scores, cols, vocab, nPlot, x) && x.col == r.error.category
    // chosen positions: any other failure is that of the first lowest row that cannot be read
    ensures && ReferenceMap(obs, reference).Ok? && positions.None? && r.Err?
            && !r.error.EmptyScores? && !r.error.MissingSymbol? ==>
              exists ps :: LowestRows(scores, nPlot, ps) &&
                exists k :: FirstUnreadable(obs.seqsMsa, AsInts(ps), ReferenceMap(obs, reference).value, k) &&
                            SymbolsAt(obs.seqsMsa, ps[k], ReferenceMap(obs, reference).value) == Err(r.error)
    // chosen positions: a matrix with cells (when rows are asked for), no missing symbol on the
    // scan's way and readable lowest rows make the overlay succeed
    ensures && ReferenceMap(obs, reference).Ok? && positions.None?
            && (nPlot <= 0 || (|scores| > 0 && cols > 0))
            && !(exists x :: FirstMissing(scores, cols, vocab, nPlot, x))
            && (forall ps :: LowestRows(scores, nPlot, ps) ==>
                  forall k :: 0 <= k < |ps| ==> SymbolsAt(obs.seqsMsa, ps[k], ReferenceMap(obs, reference).value).Ok?)
            ==> r.Ok?
    // every annotation holds one symbol per observation, read at the right column
    ensures r.Ok? ==> ReferenceMap(obs, reference).Ok?
    ensures r.Ok? ==> forall k :: 0 <= k < |r.value.annotations| ==>
              SymbolsAt(obs.seqsMsa, r.value.annotations[k].position, ReferenceMap(obs, reference).value)
                == Ok(r.value.annotations[k].symbols)
    // with a reference, its own annotation reproduces the raw reference residue
    ensures r.Ok? && reference.Some? ==>
              && ReferenceRow(obs, reference.value).Some?
              && ReproducesReference(obs, ReferenceRow(obs, reference.value).value, r.value.annotations)
  {
    var pos2msa := ReferenceMap(obs, reference);
    if pos2msa.Err? {
      return Err(pos2msa.error);
    }
    var plotted: seq<int>;
    var choice: Option<Choice> := None;
    if positions.None? {
      var picked := SelectLowest(scores, cols, nPlot, vocab, verbose);
      if picked.Err? {
        return Err(picked.error);
      }
      choice := Some(picked.value);
      plotted := AsInts(picked.value.positions);
    } else {
      plotted := positions.value;
    }
    r := BuildOverlay(obs, plotted, reference, choice);
  }
}

=== FILE: outcomes.dfy ===
/**
  Failure-carrying results shared by every part of the model, and the one
  indexing rule (Python lists and NumPy arrays alike) that the plotting code
  relies on when it reads a sequence at a caller-supplied position.
 */
module Outcomes {

  /** The exceptions the plotting functions can raise, one constructor per cause. */
  datatype Error =
    | EmptyNeighbors                    // minimum taken over a neighbour matrix with no rows
    | CorruptedNeighbors                // some row of the neighbour matrix has no positive distance
    | MissingVelocityGraph(key: string) // the `<vkey>_graph` annotation is absent
    | MissingKey(key: string)           // any other annotation looked up without a presence check
    | ShapeMismatch                     // the two signed graphs differ in shape
    | NoPath                            // the graph search found no path
    | MissingPathArguments              // neither a path nor both endpoints were given
    | MissingBasis(key: string)         // the `X_<basis>` embedding is absent
    | IndexOutOfRange(index: int)       // a sequence or array read outside its bounds
    | EmptyScores                       // argmin over a score matrix with no cells
    | MissingSymbol(category: nat)      // the vocabulary has no symbol for a category index
    | UnknownObservation(index: int)    // the reference observation does not exist
    | ReferenceTooShort                 // the raw reference ends before the aligned one does
    | AlignmentMismatch                 // aligned and raw reference disagree on a residue
    | UnknownPosition(position: int)    // a position the reference map has no column for

  datatype Result<+T> = Ok(value: T) | Err(error: Error)

  datatype Option<+T> = None | Some(value: T)

  /**
    The element a read `s[i]` reaches in a sequence of length `len`:
    non-negative indices count from the front, negative ones from the back,
    and anything else raises.
   */
  function WrapIndex(len: nat, i: int): (r: Option<nat>)
    ensures r.Some? <==> -(len as int) <= i < len
    ensures r.Some? ==> r.value < len
    ensures r.Some? && 0 <= i ==> r.value == i
    ensures r.Some? && i < 0 ==> r.value + (-i) == len
  {
    if 0 <= i < len then Some(i)
    else if -(len as int) <= i < 0 then Some(len + i)
    else None
  }
}

=== FILE: paths.dfy ===
/**
  Shortest-path trajectories: the argument guards that run before the graph
  search, and the marks `draw_path` puts on the embedding for a path.

  The search itself belongs to a graph library whose tie-breaking is not
  visible here; it is a parameter of the model.
 */
module Paths {
  import opened Outcomes

  datatype Point = Point(x: real, y: real)

  /** The parts of the annotated dataset the path functions read. */
  datatype Dataset = Dataset(
    distances: seq<seq<real>>,             // neighbour distances, one row per observation
    graphs: map<string, seq<seq<real>>>,   // unstructured annotations holding the signed graphs
    embeddings: map<string, seq<Point>>)   // first two coordinates per observation, by key

  /** The graph search: signed transition matrix, source, target; None when it raises. */
  type PathSearch = (seq<seq<real>>, int, int) -> Option<seq<int>>

  function GraphKey(vkey: string): string { vkey + "_graph" }

  function NegativeGraphKey(vkey: string): string { vkey + "_graph_neg" }

  function BasisKey(basis: string): string { "X_" + basis }

  /** A neighbour row without a single positive distance: the observation has no neighbour. */
  predicate NoPositive(row: seq<real>) {
    forall j :: 0 <= j < |row| ==> row[j] <= 0.0
  }

  /** `(row > 0).sum()`: how many distances in the row are positive. */
  function PositiveCount(row: seq<real>): (n: nat)
    ensures n <= |row|
  {
    if |row| == 0 then 0
    else PositiveCount(row[..|row| - 1]) + (if row[|row| - 1] > 0.0 then 1 else 0)
  }

  lemma {:induction false} PositiveCountZero(row: seq<real>)
    ensures PositiveCount(row) == 0 <==> NoPositive(row)
  {
    if |row| > 0 {
      var init := row[..|row| - 1];
      PositiveCountZero(init);
      assert forall j :: 0 <= j < |init| ==> init[j] == row[j];
    }
  }

  /**
    `np.min` of the positive counts of the rows, as the corruption check
    computes it: zero exactly when some row has no positive distance.
   */
  function MinPositiveCount(d: seq<seq<real>>): (n: nat)
    requires |d| > 0
    ensures n == 0 <==> exists i :: 0 <= i < |d| && NoPositive(d[i])
  {
    var last := PositiveCount(d[|d| - 1]);
    PositiveCountZero(d[|d| - 1]);
    if |d| == 1 then
      last
    else
      var rest := MinPositiveCount(d[..|d| - 1]);
      assert forall i :: 0 <= i < |d| - 1 ==> d[..|d| - 1][i] == d[i];
      if rest < last then rest else last
  }

  /** The neighbour graph passes the corruption check. */
  predicate NeighborsSound(ds: Dataset) {
    |ds.distances| > 0 && forall i :: 0 <= i < |ds.distances| ==> !NoPositive(ds.distances[i])
  }

  predicate SameShape(a: seq<seq<real>>, b: seq<seq<real>>) {
    |a| == |b| && forall i :: 0 <= i < |a| ==> |a[i]| == |b[i]|
  }

  /** `graph - graph_neg`: the signed transition matrix, entry by entry. */
  function SignedGraph(pos: seq<seq<real>>, neg: seq<seq<real>>): (t: seq<seq<real>>)
    requires SameShape(pos, neg)
    ensures SameShape(t, pos)
    ensures forall i, j :: 0 <= i < |t| && 0 <= j < |t[i]| ==> t[i][j] + neg[i][j] == pos[i][j]
  {
    seq(|pos|, i requires 0 <= i < |pos| =>
      seq(|pos[i]|, j requires 0 <= j < |pos[i]| => pos[i][j] - neg[i][j]))
  }

  /**
    The guards of `shortest_path`, in order, then the search on the signed
    transition matrix. An empty neighbour matrix fails in the minimum
    itself; a missing negative graph fails in the lookup; graphs of
    different shapes fail in the subtraction.
   */
  function ShortestPath(ds: Dataset, source: int, target: int, vkey: string, search: PathSearch): (r: Result<seq<int>>)
    ensures r == Err(EmptyNeighbors) <==> |ds.distances| == 0
    ensures r == Err(CorruptedNeighbors) <==>
              |ds.distances| > 0 && exists i :: 0 <= i < |ds.distances| && NoPositive(ds.distances[i])
    // the graph check only runs once the neighbour check has passed
    ensures r == Err(MissingVelocityGraph(GraphKey(vkey))) <==>
              NeighborsSound(ds) && GraphKey(vkey) !in ds.graphs
    ensures r == Err(MissingKey(NegativeGraphKey(vkey))) <==>
              NeighborsSound(ds) && GraphKey(vkey) in ds.graphs && NegativeGraphKey(vkey) !in ds.graphs
    ensures r == Err(ShapeMismatch) <==>
              && NeighborsSound(ds) && GraphKey(vkey) in ds.graphs && NegativeGraphKey(vkey) in ds.graphs
              && !SameShape(ds.graphs[GraphKey(vkey)], ds.graphs[NegativeGraphKey(vkey)])
    ensures r == Err(NoPath) <==>
              && NeighborsSound(ds) && GraphKey(vkey) in ds.graphs && NegativeGraphKey(vkey) in ds.graphs
              && SameShape(ds.graphs[GraphKey(vkey)], ds.graphs[NegativeGraphKey(vkey)])
              && search(SignedGraph(ds.graphs[GraphKey(vkey)], ds.graphs[NegativeGraphKey(vkey)]), source, target).None?
    ensures r.Ok? ==>
              && NeighborsSound(ds)
              && GraphKey(vkey) in ds.graphs && NegativeGraphKey(vkey) in ds.graphs
              && SameShape(ds.graphs[GraphKey(vkey)], ds.graphs[NegativeGraphKey(vkey)])
              && search(SignedGraph(ds.graphs[GraphKey(vkey)], ds.graphs[NegativeGraphKey(vkey)]), source, target)
                   == Some(r.value)
    // every check passes and the search finds a path: that path is returned
    ensures && NeighborsSound(ds) && GraphKey(vkey) in ds.graphs && NegativeGraphKey(vkey) in ds.graphs
            && SameShape(ds.graphs[GraphKey(vkey)], ds.graphs[NegativeGraphKey(vkey)])
            && search(SignedGraph(ds.graphs[GraphKey(vkey)], ds.graphs[NegativeGraphKey(vkey)]), source, target).Some?
            ==> r == Ok(search(SignedGraph(ds.graphs[GraphKey(vkey)], ds.graphs[NegativeGraphKey(vkey)]), source, target).value)
  {
    if |ds.distances| == 0 then Err(EmptyNeighbors)
    else if MinPositiveCount(ds.distances) == 0 then Err(CorruptedNeighbors)
    else if GraphKey(vkey) !in ds.graphs then Err(MissingVelocityGraph(GraphKey(vkey)))
    else if NegativeGraphKey(vkey) !in ds.graphs then Err(MissingKey(NegativeGraphKey(vkey)))
    else
      var pos, neg := ds.graphs[GraphKey(vkey)], ds.graphs[NegativeGraphKey(vkey)];
      if !SameShape(pos, neg) then Err(ShapeMismatch)
      else
        match search(SignedGraph(pos, neg), source, target)
        case None => Err(NoPath)
        case Some(p) => Ok(p)
  }

  /** `X[path, 0]` and `X[path, 1]` zipped: the embedding point of every node on the path. */
  function Coordinates(embedding: seq<Point>, path: seq<int>): (r: Result<seq<Point>>)
    ensures r.Ok? <==> forall k :: 0 <= k < |path| ==> WrapIndex(|embedding|, path[k]).Some?
    ensures r.Ok? ==> |r.value| == |path|
    ensures r.Ok? ==> forall k :: 0 <= k < |path| ==>
              WrapIndex(|embedding|, path[k]).Some? && r.value[k] == embedding[WrapIndex(|embedding|, path[k]).value]
    ensures r.Err? ==>
              exists k :: 0 <= k < |path| && r.error == IndexOutOfRange(path[k]) && WrapIndex(|embedding|, path[k]).None?
  {
    if |path| == 0 then Ok([])
    else
      match WrapIndex(|embedding|, path[0])
      case None => Err(IndexOutOfRange(path[0]))
      case Some(i) =>
        var rest := Coordinates(embedding, path[1..]);
        if rest.Err? then
          assert forall k :: 0 <= k < |path| - 1 ==> path[1..][k] == path[k + 1];
          rest
        else
          Ok([embedding[i]] + rest.value)
  }

  /**
    What `draw_path` puts on the axes, in drawing order: a plain arrow (no
    head) from each path point to the next, then one scatter of all points.
   */
  datatype Mark =
    | Arrow(from: nat, to: nat, x: real, y: real, dx: real, dy: real)
    | Markers(points: seq<Point>)

  /** Drawing layers: arrows lie below the markers. */
  const ArrowLayer: int := 5
  const MarkerLayer: int := 10

  function Layer(m: Mark): int {
    if m.Arrow? then ArrowLayer else MarkerLayer
  }

  /**
    The marks for a path of `n` points: `n - 1` arrows, arrow `k` starting at
    point `k` and ending at point `k + 1`, then the `n` markers on top.
   */
  function PathMarks(points: seq<Point>): (marks: seq<Mark>)
    ensures |marks| == (if |points| > 0 then |points| - 1 else 0) + 1
    ensures forall k :: 0 <= k < |marks| - 1 ==>
              && marks[k].Arrow? && marks[k].from == k && marks[k].to == k + 1
              && Point(marks[k].x, marks[k].y) == points[k]
              && Point(marks[k].x + marks[k].dx, marks[k].y + marks[k].dy) == points[k + 1]
              && Layer(marks[k]) < Layer(marks[|marks| - 1])
    ensures marks[|marks| - 1] == Markers(points)
  {
    var arrows := if |points| == 0 then 0 else |points| - 1;
    seq(arrows, k requires 0 <= k < arrows =>
      Arrow(k, k + 1, points[k].x, points[k].y, points[k + 1].x - points[k].x, points[k + 1].y - points[k].y))
    + [Markers(points)]
  }

  /** The points an unbroken chain of arrows passes through: every start, then the last end. */
  function Trace(arrows: seq<Mark>): seq<Point>
    requires |arrows| > 0 && forall k :: 0 <= k < |arrows| ==> arrows[k].Arrow?
  {
    seq(|arrows|, k requires 0 <= k < |arrows| => Point(arrows[k].x, arrows[k].y))
    + [Point(arrows[|arrows| - 1].x + arrows[|arrows| - 1].dx, arrows[|arrows| - 1].y + arrows[|arrows| - 1].dy)]
  }

  /**
    Following the arrows of a path of two or more points retraces the path,
    the same points the markers show.
   */
  lemma ArrowsRetracePath(points: seq<Point>)
    requires |points| >= 2
    ensures var marks := PathMarks(points);
            Trace(marks[..|marks| - 1]) == points && marks[|marks| - 1].points == points
  {
    var marks := PathMarks(points);
    var arrows := marks[..|marks| - 1];
    assert |arrows| == |points| - 1;
    assert forall k :: 0 <= k < |arrows| ==> arrows[k] == marks[k];
    var t := Trace(arrows);
    assert forall k :: 0 <= k < |points| - 1 ==> t[k] == points[k];
    assert t[|points| - 1] == points[|points| - 1];
  }

  /** The path to draw: the one given, or the search between the two endpoints. */
  function ResolvedPath(ds: Dataset, path: Option<seq<int>>, source: Option<int>, target: Option<int>,
                        vkey: string, search: PathSearch): (r: Result<seq<int>>)
    ensures r == Err(MissingPathArguments) <==> path.None? && (source.None? || target.None?)
    ensures path.Some? ==> r == Ok(path.value)
    ensures path.None? && source.Some? && target.Some? ==>
              r == ShortestPath(ds, source.value, target.value, vkey, search)
  {
    match path
    case Some(p) => Ok(p)
    case None =>
      if source.None? || target.None? then Err(MissingPathArguments)
      else
        var r := ShortestPath(ds, source.value, target.value, vkey, search);
        assert r != Err(MissingPathArguments) by {
          assert r.Err? ==> r.error != MissingPathArguments;
        }
        r
  }

  /**
    `draw_path`: the missing-argument check first, then the search when no
    path is given, then the embedding check, then the coordinate reads.
   */
  function DrawPath(ds: Dataset, path: Option<seq<int>>, source: Option<int>, target: Option<int>,
                    basis: string, vkey: string, search: PathSearch): (r: Result<seq<Mark>>)
    ensures r == Err(MissingPathArguments) <==> path.None? && (source.None? || target.None?)
    ensures ResolvedPath(ds, path, source, target, vkey, search).Err? ==>
              r == Err(ResolvedPath(ds, path, source, target, vkey, search).error)
    ensures ResolvedPath(ds, path, source, target, vkey, search).Ok? && BasisKey(basis) !in ds.embeddings ==>
              r == Err(MissingBasis(BasisKey(basis)))
    // n points on the path: n - 1 arrows, then one scatter of all n points
    ensures r.Ok? ==>
              && ResolvedPath(ds, path, source, target, vkey, search).Ok?
              && BasisKey(basis) in ds.embeddings
              && var n := |ResolvedPath(ds, path, source, target, vkey, search).value|;
                 && |r.value| == (if n > 0 then n - 1 else 0) + 1
                 && (forall k :: 0 <= k < |r.value| - 1 ==> r.value[k].Arrow?)
                 && r.value[|r.value| - 1].Markers?
                 && |r.value[|r.value| - 1].points| == n
    ensures r.Ok? ==>
              Coordinates(ds.embeddings[BasisKey(basis)], ResolvedPath(ds, path, source, target, vkey, search).value)
                == Ok(r.value[|r.value| - 1].points)
    // a resolved path on a present basis: an unreadable node fails, otherwise the path's marks are drawn
    ensures ResolvedPath(ds, path, source, target, vkey, search).Ok? && BasisKey(basis) in ds.embeddings ==>
              var points := Coordinates(ds.embeddings[BasisKey(basis)], ResolvedPath(ds, path, source, target, vkey, search).value);
              && (points.Err? ==> r == Err(points.error))
              && (points.Ok? ==> r == Ok(PathMarks(points.value)))
  {
    var p := ResolvedPath(ds, path, source, target, vkey, search);
    if p.Err? then Err(p.error)
    else if BasisKey(basis) !in ds.embeddings then Err(MissingBasis(BasisKey(basis)))
    else
      var points := Coordinates(ds.embeddings[BasisKey(basis)], p.value);
      if points.Err? then Err(points.error)
      else Ok(PathMarks(points.value))
  }

  /**
    The arrows `draw_path` draws follow the path: for a path of two or more
    nodes, their starts and the last arrow's end are the nodes' embedding
    points, the same points the scatter shows.
   */
  lemma DrawnArrowsFollowPath(ds: Dataset, path: Option<seq<int>>, source: Option<int>, target: Option<int>,
                              basis: string, vkey: string, search: PathSearch)
    requires DrawPath(ds, path, source, target, basis, vkey, search).Ok?
    requires |DrawPath(ds, path, source, target, basis, vkey, search).value| >= 2
    ensures ResolvedPath(ds, path, source, target, vkey, search).Ok? && BasisKey(basis) in ds.embeddings
    ensures var marks := DrawPath(ds, path, source, target, basis, vkey, search).value;
            && (forall k :: 0 <= k < |marks| - 1 ==> marks[k].Arrow?)
            && Ok(Trace(marks[..|marks| - 1]))
                 == Coordinates(ds.embeddings[BasisKey(basis)], ResolvedPath(ds, path, source, target, vkey, search).value)
  {
    var p := ResolvedPath(ds, path, source, target, vkey, search);
    var points := Coordinates(ds.embeddings[BasisKey(basis)], p.value);
    ArrowsRetracePath(points.value);
  }
}

=== FILE: scores.dfy ===
/**
  The residue-score matrix (positions x categories) and NumPy's argmin over it.

  Scores are real numbers; the only non-finite value the plotting code ever
  writes is positive infinity, used to mark a cell as consumed.
 */
module Scores {

  datatype Score = Finite(value: real) | PosInf

  /** Strict order on scores: every finite value lies below positive infinity. */
  predicate Lt(a: Score, b: Score) {
    a.Finite? && (b.PosInf? || a.value < b.value)
  }

  predicate Le(a: Score, b: Score) {
    !Lt(b, a)
  }

  /** A matrix with `cols` columns in every row. */
  predicate Rectangular(m: seq<seq<Score>>, cols: nat) {
    forall r :: 0 <= r < |m| ==> |m[r]| == cols
  }

  /** A cell of the matrix, as the pair `np.unravel_index` returns. */
  datatype Cell = Cell(row: nat, col: nat)

  /**
    The first index holding the minimum of `row`: no element is smaller, and
    every element before it is strictly larger.
   */
  function FirstMin(row: seq<Score>): (c: nat)
    requires |row| > 0
    ensures c < |row|
    ensures forall k :: 0 <= k < |row| ==> Le(row[c], row[k])
    ensures forall k :: 0 <= k < c ==> Lt(row[c], row[k])
  {
    if |row| == 1 then 0
    else
      var c' := FirstMin(row[..|row| - 1]);
      if Lt(row[|row| - 1], row[c']) then |row| - 1 else c'
  }

  function RowMin(row: seq<Score>): Score
    requires |row| > 0
  {
    row[FirstMin(row)]
  }

  /** The minimum of every row, in row order. */
  function RowMins(m: seq<seq<Score>>): (mins: seq<Score>)
    requires forall r :: 0 <= r < |m| ==> |m[r]| > 0
    ensures |mins| == |m|
    ensures forall r :: 0 <= r < |m| ==> mins[r] == RowMin(m[r])
  {
    seq(|m|, r requires 0 <= r < |m| => RowMin(m[r]))
  }

  /**
    `np.unravel_index(np.argmin(m), m.shape)`: the minimum cell, and on ties
    the first one in row-major order. Its row is the first row whose minimum
    is smallest, and its column is that row's first minimum.
   */
  function ArgMin(m: seq<seq<Score>>, cols: nat): (cell: Cell)
    requires |m| > 0 && cols > 0 && Rectangular(m, cols)
    ensures cell.row < |m| && cell.col < cols
    ensures forall r, c :: 0 <= r < |m| && 0 <= c < cols ==> Le(m[cell.row][cell.col], m[r][c])
    ensures forall r, c :: 0 <= r < cell.row && 0 <= c < cols ==> Lt(m[cell.row][cell.col], m[r][c])
    ensures forall c :: 0 <= c < cell.col ==> Lt(m[cell.row][cell.col], m[cell.row][c])
    ensures cell.col == FirstMin(m[cell.row])
    ensures forall r :: 0 <= r < |m| ==> Le(RowMin(m[cell.row]), RowMin(m[r]))
    ensures forall r :: 0 <= r < cell.row ==> Lt(RowMin(m[cell.row]), RowMin(m[r]))
  {
    var mins := RowMins(m);
    var i := FirstMin(mins);
    assert forall r :: 0 <= r < |m| ==> Le(RowMin(m[i]), RowMin(m[r])) by {
      forall r | 0 <= r < |m| ensures Le(RowMin(m[i]), RowMin(m[r])) {
        assert Le(mins[i], mins[r]);
      }
    }
    assert forall r :: 0 <= r < i ==> Lt(RowMin(m[i]), RowMin(m[r])) by {
      forall r | 0 <= r < i ensures Lt(RowMin(m[i]), RowMin(m[r])) {
        assert Lt(mins[i], mins[r]);
      }
    }
    Cell(i, FirstMin(m[i]))
  }

  /** A cell inside the matrix. */
  predicate InMatrix(m: seq<seq<Score>>, c: Cell) {
    c.row < |m| && c.col < |m[c.row]|
  }

  function At(m: seq<seq<Score>>, c: Cell): Score
    requires InMatrix(m, c)
  {
    m[c.row][c.col]
  }

  /** Row-major order of cells, the order `np.argmin` breaks ties in. */
  predicate RowMajorBefore(a: Cell, b: Cell) {
    a.row < b.row || (a.row == b.row && a.col < b.col)
  }

  /**
    Argmin order: `a` comes before `b` when its score is smaller, or equal
    and `a` is earlier in row-major order.
   */
  predicate CellBefore(m: seq<seq<Score>>, a: Cell, b: Cell)
    requires InMatrix(m, a) && InMatrix(m, b)
  {
    Lt(At(m, a), At(m, b)) || (At(m, a) == At(m, b) && RowMajorBefore(a, b))
  }

  /** Argmin order is a strict total order on the cells of a matrix. */
  lemma CellOrder(m: seq<seq<Score>>, a: Cell, b: Cell, c: Cell)
    requires InMatrix(m, a) && InMatrix(m, b) && InMatrix(m, c)
    ensures !CellBefore(m, a, a)
    ensures CellBefore(m, a, b) ==> !CellBefore(m, b, a)
    ensures a != b ==> CellBefore(m, a, b) || CellBefore(m, b, a)
    ensures CellBefore(m, a, b) && CellBefore(m, b, c) ==> CellBefore(m, a, c)
  {
  }

  /** The argmin cell is the first cell of the matrix in argmin order. */
  lemma ArgMinComesFirst(m: seq<seq<Score>>, cols: nat)
    requires |m| > 0 && cols > 0 && Rectangular(m, cols)
    ensures InMatrix(m, ArgMin(m, cols))
    ensures forall c :: InMatrix(m, c) && c != ArgMin(m, cols) ==> CellBefore(m, ArgMin(m, cols), c)
  {
    var x := ArgMin(m, cols);
    forall c | InMatrix(m, c) && c != x ensures CellBefore(m, x, c) {
      assert Le(At(m, x), At(m, c));
      if RowMajorBefore(c, x) {
        assert Lt(At(m, x), At(m, c));
      }
    }
  }

  /** A row with at least one finite score. */
  predicate HasFinite(row: seq<Score>) {
    exists c :: 0 <= c < |row| && row[c].Finite?
  }

  /** The finite cells of a matrix; the selection loop consumes them one by one. */
  function FiniteCells(m: seq<seq<Score>>): set<Cell> {
    set r, c | 0 <= r < |m| && 0 <= c < |m[r]| && m[r][c].Finite? :: Cell(r, c)
  }
}

=== FILE: selection.dfy ===
/**
  Automatic choice of the positions to plot: the loop that repeatedly takes
  the global minimum of the residue-score matrix, overwrites it with +inf and
  records its row until `nPlot` distinct rows are collected.

  The source mutates the matrix in place; here the overwritten matrix is
  returned alongside the positions, so the mutation stays visible to callers.
 */
module Selection {
  import opened Outcomes
  import opened Scores

  /**
    Row `a` is collected before row `b`: its minimum is smaller, or the minima
    are equal and `a` comes first (its minimum cell is earlier in row-major order).
   */
  predicate RowBefore(m: seq<seq<Score>>, a: nat, b: nat)
    requires a < |m| && b < |m|
  {
    && |m[a]| > 0 && |m[b]| > 0
    && (Lt(RowMin(m[a]), RowMin(m[b])) || (RowMin(m[a]) == RowMin(m[b]) && a < b))
  }

  predicate StrictlyIncreasing(s: seq<nat>) {
    forall a, b :: 0 <= a < b < |s| ==> s[a] < s[b]
  }

  /** Rows outside `seen` that still hold a finite score. */
  ghost function FiniteRows(m: seq<seq<Score>>, seen: set<nat>): set<nat> {
    set r: nat | r < |m| && r !in seen && HasFinite(m[r])
  }

  /**
    How many distinct rows the loop can ever collect from `m`: every row with
    a finite score, and row 0 once only +inf is left (argmin then returns
    cell (0, 0) for ever).
   */
  ghost function Reachable(m: seq<seq<Score>>): nat {
    |FiniteRows(m, {})| + (if |m| > 0 && !HasFinite(m[0]) then 1 else 0)
  }

  /** One step of the scan: find the minimum cell and overwrite it with +inf. */
  function Consume(m: seq<seq<Score>>, cols: nat): (res: (Cell, seq<seq<Score>>))
    requires |m| > 0 && cols > 0 && Rectangular(m, cols)
    ensures res.0 == ArgMin(m, cols)
    ensures |res.1| == |m| && Rectangular(res.1, cols)
    ensures forall r, c :: 0 <= r < |m| && 0 <= c < cols ==>
              res.1[r][c] == (if Cell(r, c) == res.0 then PosInf else m[r][c])
  {
    var cell := ArgMin(m, cols);
    (cell, m[cell.row := m[cell.row][cell.col := PosInf]])
  }

  /**
    Once every cell is +inf the scan is stuck: it returns cell (0, 0) and
    leaves the matrix as it was, so with row 0 already collected the loop
    never ends.
   */
  lemma ExhaustedScanIsFixpoint(m: seq<seq<Score>>, cols: nat)
    requires |m| > 0 && cols > 0 && Rectangular(m, cols)
    requires forall r, c :: 0 <= r < |m| && 0 <= c < cols ==> m[r][c] == PosInf
    ensures Consume(m, cols) == (Cell(0, 0), m)
  {
    var (cell, m') := Consume(m, cols);
    assert !Lt(m[cell.row][cell.col], m[0][0]);
    assert cell.row == 0;
    assert !Lt(m[0][cell.col], m[0][0]);
    assert cell.col == 0;
    assert m[0][0 := PosInf] == m[0];
    assert m' == m;
  }

  datatype LogEntry = LowestScore(rank: nat, symbol: string, position: nat)

  /**
    What the scan produces: the chosen positions in ascending order, every
    cell it consumed in scan order, the `Lowest score` log lines (1-based
    positions) and the score matrix as the scan leaves it.
   */
  datatype Choice = Choice(positions: seq<nat>, visited: seq<Cell>, log: seq<LogEntry>, after: seq<seq<Score>>)

  lemma RemoveOne<T>(s: set<T>, x: T)
    requires x in s
    ensures |s - {x}| == |s| - 1
  {
    assert s == (s - {x}) + {x};
  }

  lemma {:induction false} StrictlyIncreasingCard(s: seq<nat>, elems: set<nat>)
    requires StrictlyIncreasing(s)
    requires forall x :: x in s <==> x in elems
    ensures |s| == |elems|
  {
    if |s| == 0 {
      assert forall x :: x !in elems;
    } else {
      var last := s[|s| - 1];
      var init := s[..|s| - 1];
      assert last !in init by {
        forall k | 0 <= k < |init| ensures init[k] != last {
          assert s[k] < s[|s| - 1];
        }
      }
      forall x ensures x in init <==> x in elems - {last} {
        if x in init {
          var k :| 0 <= k < |init| && init[k] == x;
          assert s[k] == x;
        }
        if x in elems - {last} {
          assert x in s;
          var k :| 0 <= k < |s| && s[k] == x;
          assert k != |s| - 1;
          assert init[k] == x;
        }
      }
      StrictlyIncreasingCard(init, elems - {last});
      assert last in elems by { assert s[|s| - 1] in s; }
      RemoveOne(elems, last);
    }
  }

  /** `sorted(seen)` for a set of row indices below `bound`. */
  method SortedRows(seen: set<nat>, bound: nat) returns (s: seq<nat>)
    requires forall x :: x in seen ==> x < bound
    ensures StrictlyIncreasing(s)
    ensures forall x :: x in s <==> x in seen
    ensures |s| == |seen|
  {
    s := [];
    var i := 0;
    while i < bound
      invariant 0 <= i <= bound
      invariant StrictlyIncreasing(s)
      invariant forall x :: x in s <==> x in seen && x < i
      invariant forall k :: 0 <= k < |s| ==> s[k] < i
    {
      if i in seen {
        s := s + [i];
      }
      i := i + 1;
    }
    StrictlyIncreasingCard(s, seen);
  }

  /**
    When the scan meets +inf, no finite score is left; the bound on the rows
    still to collect then forces the minimum to be cell (0, 0) of a row not
    yet seen, so the scan makes progress.
   */
  lemma ExhaustedPicksUnseenRowZero(scores: seq<seq<Score>>, m: seq<seq<Score>>, cols: nat,
                                    seen: set<nat>, collected: nat, nPlot: int, cell: Cell)
    requires |m| == |scores| > 0 && cols > 0 && Rectangular(m, cols) && Rectangular(scores, cols)
    requires forall row :: 0 <= row < |m| && row !in seen ==> m[row] == scores[row]
    requires cell == ArgMin(m, cols) && m[cell.row][cell.col].PosInf?
    requires collected < nPlot
    requires nPlot - collected <= |FiniteRows(scores, seen)| + (if 0 !in seen && !HasFinite(scores[0]) then 1 else 0)
    ensures cell.row == 0 && 0 !in seen && !HasFinite(scores[0])
    ensures FiniteRows(scores, seen) == {}
  {
    assert !Lt(m[cell.row][cell.col], m[0][0]);
    forall q: nat | q < |scores| && q !in seen ensures !HasFinite(scores[q]) {
      forall c | 0 <= c < |scores[q]| ensures scores[q][c].PosInf? {
        assert Le(m[cell.row][cell.col], m[q][c]);
      }
    }
    assert FiniteRows(scores, seen) == {};
  }

  /**
    The first cell the scan takes in a row not yet seen lies at that row's
    first minimum, and that row comes before every other unseen row.
   */
  lemma NewRowComesNext(scores: seq<seq<Score>>, m: seq<seq<Score>>, cols: nat, seen: set<nat>, cell: Cell)
    requires |m| == |scores| > 0 && cols > 0 && Rectangular(m, cols) && Rectangular(scores, cols)
    requires forall row :: 0 <= row < |m| && row !in seen ==> m[row] == scores[row]
    requires cell == ArgMin(m, cols) && cell.row !in seen
    ensures cell.col == FirstMin(scores[cell.row])
    ensures forall q: nat :: q < |m| && q !in seen && q != cell.row ==> RowBefore(scores, cell.row, q)
  {
    forall q: nat | q < |m| && q !in seen && q != cell.row
      ensures RowBefore(scores, cell.row, q)
    {
      assert Le(RowMin(m[cell.row]), RowMin(m[q]));
      if q < cell.row {
        assert Lt(RowMin(m[cell.row]), RowMin(m[q]));
      }
    }
  }

  /**
    The consumed cells so far: each is +inf, every other cell still holds its
    original score, and only rows already collected have been touched. This
    is the scan's loop invariant; `ConsumedCells` is its form for callers.
   */
  ghost predicate Overwritten(scores: seq<seq<Score>>, cols: nat, vocab: map<nat, string>,
                              m: seq<seq<Score>>, seen: set<nat>, visited: seq<Cell>)
  {
    && Rectangular(scores, cols) && |m| == |scores| && Rectangular(m, cols)
    && (forall row, c :: 0 <= row < |m| && 0 <= c < cols ==>
          m[row][c] == (if Cell(row, c) in visited then PosInf else scores[row][c]))
    && (forall row :: 0 <= row < |m| && row !in seen ==> m[row] == scores[row])
    && (forall v :: v in visited ==> v.row in seen && v.col < cols && v.col in vocab)
    && (forall x :: x in seen ==> x < |scores|)
  }

  /**
    The rows collected so far, in collection order: each comes before every
    later one and before every row not yet collected, and each row's first
    minimum has been consumed.
   */
  ghost predicate Collected(scores: seq<seq<Score>>, cols: nat, vocab: map<nat, string>,
                            seen: set<nat>, order: seq<nat>, visited: seq<Cell>)
  {
    && (forall x :: x in seen <==> x in order)
    && |seen| == |order|
    && (forall k :: 0 <= k < |order| ==> order[k] < |scores|)
    && (forall a, b :: 0 <= a < b < |order| ==> RowBefore(scores, order[a], order[b]))
    && (forall a, q: nat :: 0 <= a < |order| && q < |scores| && q !in seen ==> RowBefore(scores, order[a], q))
    && (forall k :: 0 <= k < |order| ==>
          && |scores[order[k]]| > 0
          && Cell(order[k], FirstMin(scores[order[k]])) in visited
          && FirstMin(scores[order[k]]) in vocab)
  }

  /**
    The log holds one `Lowest score` line per collected row, in collection
    order. This is the scan's loop invariant; `LogLines` is its form for callers.
   */
  ghost predicate Logged(scores: seq<seq<Score>>, vocab: map<nat, string>, order: seq<nat>, log: seq<LogEntry>)
  {
    && |log| == |order|
    && forall k :: 0 <= k < |order| ==>
         && order[k] < |scores|
         && |scores[order[k]]| > 0
         && FirstMin(scores[order[k]]) in vocab
         && log[k] == LowestScore(k + 1, vocab[FirstMin(scores[order[k]])], order[k] + 1)
  }

  lemma ConsumeKeepsOverwritten(scores: seq<seq<Score>>, cols: nat, vocab: map<nat, string>,
                                m: seq<seq<Score>>, seen: set<nat>, visited: seq<Cell>)
    requires |m| > 0 && cols > 0
    requires Overwritten(scores, cols, vocab, m, seen, visited)
    requires Consume(m, cols).0.col in vocab
    ensures Overwritten(scores, cols, vocab, Consume(m, cols).1, seen + {Consume(m, cols).0.row},
                       visited + [Consume(m, cols).0])
    ensures Consume(m, cols).0.row in seen ==>
              Overwritten(scores, cols, vocab, Consume(m, cols).1, seen, visited + [Consume(m, cols).0])
  {
    var (cell, m') := Consume(m, cols);
    var seen', visited' := seen + {cell.row}, visited + [cell];
    forall row, c | 0 <= row < |m'| && 0 <= c < cols
      ensures m'[row][c] == (if Cell(row, c) in visited' then PosInf else scores[row][c])
    {
      if Cell(row, c) != cell {
        assert Cell(row, c) in visited' <==> Cell(row, c) in visited;
      }
    }
    forall row | 0 <= row < |m'| && row !in seen' ensures m'[row] == scores[row] {
      assert m'[row] == m[row];
    }
    if cell.row in seen {
      assert seen' == seen;
    }
  }

  lemma FiniteCellsMember(m: seq<seq<Score>>, x: Cell)
    ensures x in FiniteCells(m) <==> x.row < |m| && x.col < |m[x.row]| && m[x.row][x.col].Finite?
  {
    if x.row < |m| && x.col < |m[x.row]| && m[x.row][x.col].Finite? {
      assert Cell(x.row, x.col) == x;
    }
  }

  /** Each step consumes a finite cell, or (all finite cells gone) collects row 0. */
  lemma ConsumeProgress(scores: seq<seq<Score>>, cols: nat, vocab: map<nat, string>,
                        m: seq<seq<Score>>, seen: set<nat>, visited: seq<Cell>, collected: nat, nPlot: int)
    requires |m| > 0 && cols > 0 && Rectangular(scores, cols)
    requires Overwritten(scores, cols, vocab, m, seen, visited)
    requires collected < nPlot
    requires nPlot - collected <= |FiniteRows(scores, seen)| + (if 0 !in seen && !HasFinite(scores[0]) then 1 else 0)
    ensures |FiniteCells(Consume(m, cols).1)| < |FiniteCells(m)|
            || (Consume(m, cols).1 == m && Consume(m, cols).0.row == 0 && 0 !in seen && !HasFinite(scores[0]))
  {
    var (cell, m') := Consume(m, cols);
    if m[cell.row][cell.col].PosInf? {
      ExhaustedPicksUnseenRowZero(scores, m, cols, seen, collected, nPlot, cell);
      assert m[cell.row][cell.col := PosInf] == m[cell.row];
      assert m' == m;
    } else {
      forall x: Cell ensures x in FiniteCells(m') <==> x in FiniteCells(m) - {cell} {
        FiniteCellsMember(m', x);
        FiniteCellsMember(m, x);
      }
      assert FiniteCells(m') == FiniteCells(m) - {cell};
      RemoveOne(FiniteCells(m), cell);
    }
  }

  /**
    Appending a row that precedes every other unseen row keeps the collection
    order: each collected row still precedes every later one and every row
    left unseen.
   */
  lemma OrderExtends(scores: seq<seq<Score>>, seen: set<nat>, order: seq<nat>, i: nat)
    requires forall k :: 0 <= k < |order| ==> order[k] < |scores|
    requires forall a, b :: 0 <= a < b < |order| ==> RowBefore(scores, order[a], order[b])
    requires forall a, q: nat :: 0 <= a < |order| && q < |scores| && q !in seen ==> RowBefore(scores, order[a], q)
    requires i < |scores| && i !in seen
    requires forall q: nat :: q < |scores| && q !in seen && q != i ==> RowBefore(scores, i, q)
    ensures forall a, b :: 0 <= a < b < |order + [i]| ==> RowBefore(scores, (order + [i])[a], (order + [i])[b])
    ensures forall a, q: nat :: 0 <= a < |order + [i]| && q < |scores| && q !in seen + {i} ==>
              RowBefore(scores, (order + [i])[a], q)
  {
    var order' := order + [i];
    forall a, b | 0 <= a < b < |order'| ensures RowBefore(scores, order'[a], order'[b]) {
      if b < |order| {
        assert order'[a] == order[a] && order'[b] == order[b];
      } else {
        assert order'[a] == order[a] && order'[b] == i;
      }
    }
    forall a, q: nat | 0 <= a < |order'| && q < |scores| && q !in seen + {i}
      ensures RowBefore(scores, order'[a], q)
    {
      if a < |order| {
        assert order'[a] == order[a];
      }
    }
  }

  /**
    Collecting a row that precedes every other unseen row, once its first
    minimum is consumed, keeps the collection order.
   */
  lemma CollectNewRow(scores: seq<seq<Score>>, cols: nat, vocab: map<nat, string>,
                      seen: set<nat>, order: seq<nat>, visited: seq<Cell>, cell: Cell)
    requires Collected(scores, cols, vocab, seen, order, visited)
    requires cell.row < |scores| && cell.row !in seen && cell.col in vocab
    requires |scores[cell.row]| > 0 && cell.col == FirstMin(scores[cell.row])
    requires forall q: nat :: q < |scores| && q !in seen && q != cell.row ==> RowBefore(scores, cell.row, q)
    ensures Collected(scores, cols, vocab, seen + {cell.row}, order + [cell.row], visited + [cell])
  {
    var i := cell.row;
    var seen', order', visited' := seen + {i}, order + [i], visited + [cell];
    assert |seen'| == |order'| by {
      RemoveOne(seen', i);
      assert seen' - {i} == seen;
    }
    assert forall x :: x in seen' <==> x in order';
    OrderExtends(scores, seen, order, i);
    forall k | 0 <= k < |order'|
      ensures && |scores[order'[k]]| > 0
              && Cell(order'[k], FirstMin(scores[order'[k]])) in visited'
              && FirstMin(scores[order'[k]]) in vocab
    {
      if k < |order| {
        assert order'[k] == order[k];
      }
    }
  }

  /** Collecting row `i` lowers the bound on the rows still reachable by one. */
  lemma CollectLowersBound(scores: seq<seq<Score>>, seen: set<nat>, collected: nat, nPlot: int, i: nat)
    requires |scores| > 0 && i < |scores| && i !in seen
    requires HasFinite(scores[i]) || (i == 0 && !HasFinite(scores[0]))
    requires nPlot - collected <= |FiniteRows(scores, seen)| + (if 0 !in seen && !HasFinite(scores[0]) then 1 else 0)
    ensures var seen' := seen + {i};
            nPlot - (collected + 1) <= |FiniteRows(scores, seen')| + (if 0 !in seen' && !HasFinite(scores[0]) then 1 else 0)
  {
    assert FiniteRows(scores, seen + {i}) == FiniteRows(scores, seen) - {i};
    if HasFinite(scores[i]) {
      RemoveOne(FiniteRows(scores, seen), i);
    }
  }

  /**
    A step that meets a row not yet collected: the row joins the collection
    in order, and the bound on the rows still to collect drops by one.
   */
  lemma CollectStep(scores: seq<seq<Score>>, cols: nat, vocab: map<nat, string>, m: seq<seq<Score>>,
                    seen: set<nat>, order: seq<nat>, visited: seq<Cell>, nPlot: int)
    requires |m| > 0 && cols > 0
    requires Overwritten(scores, cols, vocab, m, seen, visited)
    requires Collected(scores, cols, vocab, seen, order, visited)
    requires |order| < nPlot
    requires nPlot - |order| <= |FiniteRows(scores, seen)| + (if 0 !in seen && !HasFinite(scores[0]) then 1 else 0)
    requires Consume(m, cols).0.row !in seen && Consume(m, cols).0.col in vocab
    ensures var cell := Consume(m, cols).0;
            cell.row < |scores| && |scores[cell.row]| > 0 && cell.col == FirstMin(scores[cell.row])
    ensures var cell := Consume(m, cols).0;
            Collected(scores, cols, vocab, seen + {cell.row}, order + [cell.row], visited + [cell])
    ensures var seen' := seen + {Consume(m, cols).0.row};
            nPlot - (|order| + 1) <= |FiniteRows(scores, seen')| + (if 0 !in seen' && !HasFinite(scores[0]) then 1 else 0)
  {
    var cell := Consume(m, cols).0;
    var i := cell.row;
    NewRowComesNext(scores, m, cols, seen, cell);
    CollectNewRow(scores, cols, vocab, seen, order, visited, cell);
    assert m[i] == scores[i];
    if m[i][cell.col].PosInf? {
      ExhaustedPicksUnseenRowZero(scores, m, cols, seen, |order|, nPlot, cell);
    } else {
      assert scores[i][cell.col].Finite?;
    }
    CollectLowersBound(scores, seen, |order|, nPlot, i);
  }

  /** Consuming one more cell of a row already collected keeps the collection as it is. */
  lemma RevisitStep(scores: seq<seq<Score>>, cols: nat, vocab: map<nat, string>,
                    seen: set<nat>, order: seq<nat>, visited: seq<Cell>, cell: Cell)
    requires Collected(scores, cols, vocab, seen, order, visited)
    ensures Collected(scores, cols, vocab, seen, order, visited + [cell])
  {
    forall k | 0 <= k < |order|
      ensures Cell(order[k], FirstMin(scores[order[k]])) in visited + [cell]
    {
      assert Cell(order[k], FirstMin(scores[order[k]])) in visited;
    }
  }

  /** Logging row `i` as the next collected row keeps the log in step with the collection order. */
  lemma LogAppend(scores: seq<seq<Score>>, vocab: map<nat, string>, order: seq<nat>, log: seq<LogEntry>, i: nat,
                  rank: nat, symbol: string)
    requires Logged(scores, vocab, order, log)
    requires i < |scores| && |scores[i]| > 0 && FirstMin(scores[i]) in vocab
    requires rank == |order| + 1 && symbol == vocab[FirstMin(scores[i])]
    ensures Logged(scores, vocab, order + [i], log + [LowestScore(rank, symbol, i + 1)])
  {
    var order', log' := order + [i], log + [LowestScore(rank, symbol, i + 1)];
    forall k | 0 <= k < |order'|
      ensures && order'[k] < |scores| && |scores[order'[k]]| > 0 && FirstMin(scores[order'[k]]) in vocab
              && log'[k] == LowestScore(k + 1, vocab[FirstMin(scores[order'[k]])], order'[k] + 1)
    {
      if k < |order| {
        assert order'[k] == order[k] && log'[k] == log[k];
      }
    }
  }

  /** What the scan keeps true between two steps about the matrix and the rows collected. */
  ghost predicate Scanning(scores: seq<seq<Score>>, cols: nat, vocab: map<nat, string>, nPlot: int,
                           m: seq<seq<Score>>, seen: set<nat>, order: seq<nat>, visited: seq<Cell>)
  {
    && |scores| > 0
    && Overwritten(scores, cols, vocab, m, seen, visited)
    && Collected(scores, cols, vocab, seen, order, visited)
    && |order| <= nPlot
    && nPlot - |order| <= |FiniteRows(scores, seen)| + (if 0 !in seen && !HasFinite(scores[0]) then 1 else 0)
  }

  /**
    A step that consumes a cell of a row not yet collected: the row joins the
    collection, the consumed cells stay recorded, the bound on the rows still
    to collect drops by one, and the matrix either loses a finite cell or
    stays as it was.
   */
  lemma ScanNewRow(scores: seq<seq<Score>>, cols: nat, vocab: map<nat, string>, nPlot: int,
                   m: seq<seq<Score>>, seen: set<nat>, order: seq<nat>, visited: seq<Cell>,
                   cell: Cell, m': seq<seq<Score>>)
    requires cols > 0 && Scanning(scores, cols, vocab, nPlot, m, seen, order, visited)
    requires |seen| < nPlot
    requires Consume(m, cols) == (cell, m') && cell.col in vocab && cell.row !in seen
    ensures Scanning(scores, cols, vocab, nPlot, m', seen + {cell.row}, order + [cell.row], visited + [cell])
    ensures |FiniteCells(m')| <= |FiniteCells(m)|
    ensures |seen + {cell.row}| == |seen| + 1 == |order| + 1
    ensures cell.row < |scores| && |scores[cell.row]| > 0 && cell.col == FirstMin(scores[cell.row])
  {
    ConsumeProgress(scores, cols, vocab, m, seen, visited, |order|, nPlot);
    ConsumeKeepsOverwritten(scores, cols, vocab, m, seen, visited);
    CollectStep(scores, cols, vocab, m, seen, order, visited, nPlot);
  }

  /** A step that consumes another cell of a row already collected: it uses up a finite cell. */
  lemma ScanSeenRow(scores: seq<seq<Score>>, cols: nat, vocab: map<nat, string>, nPlot: int,
                    m: seq<seq<Score>>, seen: set<nat>, order: seq<nat>, visited: seq<Cell>,
                    cell: Cell, m': seq<seq<Score>>)
    requires cols > 0 && Scanning(scores, cols, vocab, nPlot, m, seen, order, visited)
    requires |seen| < nPlot
    requires Consume(m, cols) == (cell, m') && cell.col in vocab && cell.row in seen
    ensures Scanning(scores, cols, vocab, nPlot, m', seen, order, visited + [cell])
    ensures |FiniteCells(m')| < |FiniteCells(m)|
  {
    ConsumeProgress(scores, cols, vocab, m, seen, visited, |order|, nPlot);
    ConsumeKeepsOverwritten(scores, cols, vocab, m, seen, visited);
    RevisitStep(scores, cols, vocab, seen, order, visited, cell);
  }

  /** The scan starts from the untouched matrix with nothing collected. */
  lemma ScanStart(scores: seq<seq<Score>>, cols: nat, vocab: map<nat, string>, nPlot: int)
    requires |scores| > 0 && Rectangular(scores, cols)
    requires 0 < nPlot <= Reachable(scores)
    ensures Scanning(scores, cols, vocab, nPlot, scores, {}, [], [])
  {
  }

  /**
    The cells consumed so far are the first ones in argmin order: they are
    in the matrix, each comes before the next, and every finite cell that
    comes before one of them was consumed too.
   */
  ghost predicate ScanPrefix(scores: seq<seq<Score>>, visited: seq<Cell>)
  {
    && (forall v :: v in visited ==> InMatrix(scores, v))
    && (forall i, j :: 0 <= i < j < |visited| ==> CellBefore(scores, visited[i], visited[j]))
    && (forall c: Cell, j ::
          0 <= j < |visited| && InMatrix(scores, c) && At(scores, c).Finite? && CellBefore(scores, c, visited[j])
          ==> c in visited)
  }

  /**
    Every consumed cell had a finite score, except that once the scan is
    done its last cell may be the +inf cell (0, 0) of an exhausted matrix.
   */
  ghost predicate FiniteUntilDone(scores: seq<seq<Score>>, visited: seq<Cell>, done: bool)
  {
    forall i :: 0 <= i < |visited| ==>
      && InMatrix(scores, visited[i])
      && (At(scores, visited[i]).Finite? || (done && i == |visited| - 1 && visited[i] == Cell(0, 0)))
  }

  /** The last consumed cell is the first one met in its row. */
  predicate EndsOnNewRow(visited: seq<Cell>)
  {
    |visited| > 0 && forall i :: 0 <= i < |visited| - 1 ==> visited[i].row != visited[|visited| - 1].row
  }

  /** The order facts the scan keeps between two steps. */
  ghost predicate Ordered(scores: seq<seq<Score>>, nPlot: int, seen: set<nat>, visited: seq<Cell>)
  {
    && ScanPrefix(scores, visited)
    && FiniteUntilDone(scores, visited, nPlot <= |seen|)
    && (nPlot <= |seen| ==> EndsOnNewRow(visited))
  }

  /**
    The cell a step takes has not been taken before; it is +inf only when
    nothing finite is left, and then it is cell (0, 0) of row 0, not yet
    collected, and the last row the scan needs.
   */
  lemma FreshPick(scores: seq<seq<Score>>, cols: nat, vocab: map<nat, string>, nPlot: int,
                  m: seq<seq<Score>>, seen: set<nat>, order: seq<nat>, visited: seq<Cell>,
                  cell: Cell, m': seq<seq<Score>>)
    requires cols > 0 && Scanning(scores, cols, vocab, nPlot, m, seen, order, visited)
    requires |seen| < nPlot
    requires Consume(m, cols) == (cell, m')
    ensures cell !in visited
    ensures cell.row < |m| && cell.col < cols
    ensures m[cell.row][cell.col].PosInf? ==> cell == Cell(0, 0) && 0 !in seen && nPlot <= |seen| + 1
  {
    if m[cell.row][cell.col].PosInf? {
      ExhaustedPicksUnseenRowZero(scores, m, cols, seen, |order|, nPlot, cell);
      assert Le(m[0][cell.col], m[0][0]);
    }
  }

  /** A fresh argmin cell extends the consumed prefix in argmin order. */
  lemma PrefixStep(scores: seq<seq<Score>>, cols: nat, vocab: map<nat, string>,
                   m: seq<seq<Score>>, seen: set<nat>, visited: seq<Cell>, cell: Cell, m': seq<seq<Score>>)
    requires |m| > 0 && cols > 0
    requires Overwritten(scores, cols, vocab, m, seen, visited)
    requires ScanPrefix(scores, visited) && FiniteUntilDone(scores, visited, false)
    requires Consume(m, cols) == (cell, m') && cell !in visited
    ensures InMatrix(scores, cell) && At(scores, cell) == m[cell.row][cell.col]
    ensures ScanPrefix(scores, visited + [cell])
  {
    ArgMinComesFirst(m, cols);
    var visited' := visited + [cell];
    assert At(scores, cell) == At(m, cell);
    forall i, j | 0 <= i < j < |visited'| ensures CellBefore(scores, visited'[i], visited'[j]) {
      if j == |visited| {
        var v := visited[i];
        CellOrder(scores, v, cell, v);
        assert At(scores, cell).Finite? && CellBefore(scores, cell, v) ==> cell in visited;
      } else {
        assert visited'[i] == visited[i] && visited'[j] == visited[j];
      }
    }
    // no cell left untouched comes before the argmin cell
    forall c: Cell | InMatrix(scores, c) && c !in visited ensures !CellBefore(scores, c, cell) {
      assert At(scores, c) == At(m, c);
      assert c == cell || CellBefore(m, cell, c);
      CellOrder(scores, c, cell, c);
    }
    forall c: Cell, j | 0 <= j < |visited'| && InMatrix(scores, c) && At(scores, c).Finite? &&
                        CellBefore(scores, c, visited'[j])
      ensures c in visited'
    {
      if j < |visited| {
        assert visited'[j] == visited[j];
      }
    }
  }

  /** One more consumed cell keeps the finiteness record. */
  lemma FiniteExtends(scores: seq<seq<Score>>, visited: seq<Cell>, cell: Cell, done: bool)
    requires FiniteUntilDone(scores, visited, false)
    requires InMatrix(scores, cell) && (At(scores, cell).Finite? || (done && cell == Cell(0, 0)))
    ensures FiniteUntilDone(scores, visited + [cell], done)
  {
    var visited' := visited + [cell];
    forall i | 0 <= i < |visited'|
      ensures && InMatrix(scores, visited'[i])
              && (At(scores, visited'[i]).Finite? || (done && i == |visited'| - 1 && visited'[i] == Cell(0, 0)))
    {
      if i < |visited| {
        assert visited'[i] == visited[i];
      }
    }
  }

  /** The order facts after a step that collects a new row. */
  lemma OrderedNewRow(scores: seq<seq<Score>>, cols: nat, vocab: map<nat, string>, nPlot: int,
                      m: seq<seq<Score>>, seen: set<nat>, order: seq<nat>, visited: seq<Cell>,
                      cell: Cell, m': seq<seq<Score>>)
    requires cols > 0 && Scanning(scores, cols, vocab, nPlot, m, seen, order, visited)
    requires |seen| < nPlot && Ordered(scores, nPlot, seen, visited)
    requires Consume(m, cols) == (cell, m') && cell.row !in seen
    ensures Ordered(scores, nPlot, seen + {cell.row}, visited + [cell])
  {
    FreshPick(scores, cols, vocab, nPlot, m, seen, order, visited, cell, m');
    PrefixStep(scores, cols, vocab, m, seen, visited, cell, m');
    var seen' := seen + {cell.row};
    assert |seen'| == |seen| + 1 by {
      RemoveOne(seen', cell.row);
      assert seen' - {cell.row} == seen;
    }
    FiniteExtends(scores, visited, cell, nPlot <= |seen'|);
    var visited' := visited + [cell];
    forall i | 0 <= i < |visited'| - 1 ensures visited'[i].row != cell.row {
      assert visited'[i] == visited[i] && visited[i] in visited;
    }
  }

  /** The order facts after a step that meets a row already collected. */
  lemma OrderedSeenRow(scores: seq<seq<Score>>, cols: nat, vocab: map<nat, string>, nPlot: int,
                       m: seq<seq<Score>>, seen: set<nat>, order: seq<nat>, visited: seq<Cell>,
                       cell: Cell, m': seq<seq<Score>>)
    requires cols > 0 && Scanning(scores, cols, vocab, nPlot, m, seen, order, visited)
    requires |seen| < nPlot && Ordered(scores, nPlot, seen, visited)
    requires Consume(m, cols) == (cell, m') && cell.row in seen
    ensures Ordered(scores, nPlot, seen, visited + [cell])
  {
    FreshPick(scores, cols, vocab, nPlot, m, seen, order, visited, cell, m');
    PrefixStep(scores, cols, vocab, m, seen, visited, cell, m');
    FiniteExtends(scores, visited, cell, false);
  }

  lemma {:induction false} SubsetCard<T>(a: set<T>, b: set<T>)
    requires a <= b
    ensures |a| <= |b|
    decreases a
  {
    if a != {} {
      var x :| x in a;
      SubsetCard(a - {x}, b - {x});
      RemoveOne(a, x);
      RemoveOne(b, x);
    }
  }

  /** The finite cells that come before `x` in argmin order. */
  ghost function Earlier(scores: seq<seq<Score>>, x: Cell): set<Cell>
    requires InMatrix(scores, x)
  {
    set r, c | 0 <= r < |scores| && 0 <= c < |scores[r]| && scores[r][c].Finite? &&
               CellBefore(scores, Cell(r, c), x) :: Cell(r, c)
  }

  lemma EarlierMember(scores: seq<seq<Score>>, x: Cell, y: Cell)
    requires InMatrix(scores, x)
    ensures y in Earlier(scores, x) <==> InMatrix(scores, y) && At(scores, y).Finite? && CellBefore(scores, y, x)
  {
    if InMatrix(scores, y) && At(scores, y).Finite? && CellBefore(scores, y, x) {
      assert Cell(y.row, y.col) == y;
    }
  }

  ghost function RowsOf(cells: set<Cell>): set<nat> {
    set v | v in cells :: v.row
  }

  /**
    The cell where the scan stops on a missing symbol: its category has no
    symbol, it is finite or the +inf cell (0, 0) an exhausted matrix yields,
    every finite cell before it has a symbol, and those cells cover fewer
    than `nPlot` rows, so the scan is still running when it gets there.
   */
  ghost predicate FirstMissing(scores: seq<seq<Score>>, cols: nat, vocab: map<nat, string>, nPlot: int, x: Cell)
  {
    && Rectangular(scores, cols) && InMatrix(scores, x)
    && x.col !in vocab
    && (At(scores, x).Finite? || x == Cell(0, 0))
    && (forall y :: y in Earlier(scores, x) ==> y.col in vocab)
    && |RowsOf(Earlier(scores, x))| < nPlot
  }

  /** A step that meets a category without a symbol stops at the first missing cell. */
  lemma MissingAtPick(scores: seq<seq<Score>>, cols: nat, vocab: map<nat, string>, nPlot: int,
                      m: seq<seq<Score>>, seen: set<nat>, order: seq<nat>, visited: seq<Cell>,
                      cell: Cell, m': seq<seq<Score>>)
    requires cols > 0 && Scanning(scores, cols, vocab, nPlot, m, seen, order, visited)
    requires |seen| < nPlot && Ordered(scores, nPlot, seen, visited)
    requires Consume(m, cols) == (cell, m') && cell.col !in vocab
    ensures FirstMissing(scores, cols, vocab, nPlot, cell)
  {
    FreshPick(scores, cols, vocab, nPlot, m, seen, order, visited, cell, m');
    PrefixStep(scores, cols, vocab, m, seen, visited, cell, m');
    var before := Earlier(scores, cell);
    forall y | y in before ensures y in visited {
      EarlierMember(scores, cell, y);
      CellOrder(scores, y, cell, y);
      assert y in visited + [cell];
    }
    assert RowsOf(before) <= seen;
    SubsetCard(RowsOf(before), seen);
  }

  /**
    Everything a completed scan consumed comes before any cell with a
    missing symbol that the scan could still have met, so the rows it
    collected all occur among the cells before that one.
   */
  lemma ConsumedBeforeMissing(scores: seq<seq<Score>>, cols: nat, vocab: map<nat, string>, nPlot: int,
                              m: seq<seq<Score>>, seen: set<nat>, order: seq<nat>, visited: seq<Cell>, x: Cell)
    requires Scanning(scores, cols, vocab, nPlot, m, seen, order, visited)
    requires ScanPrefix(scores, visited) && FiniteUntilDone(scores, visited, true)
    requires InMatrix(scores, x) && x.col !in vocab && (At(scores, x).Finite? || x == Cell(0, 0))
    ensures seen <= RowsOf(Earlier(scores, x))
  {
    forall v | v in visited ensures v in Earlier(scores, x) {
      var i :| 0 <= i < |visited| && visited[i] == v;
      assert At(scores, x).Finite? && CellBefore(scores, x, visited[i]) ==> x in visited;
      CellOrder(scores, v, x, v);
      EarlierMember(scores, x, v);
    }
    forall r | r in seen ensures r in RowsOf(Earlier(scores, x)) {
      var k :| 0 <= k < |order| && order[k] == r;
      assert Cell(r, FirstMin(scores[r])) in visited;
    }
  }

  /** A scan that collected its rows never met a cell whose category lacks a symbol. */
  lemma CompletedScanMissesNothing(scores: seq<seq<Score>>, cols: nat, vocab: map<nat, string>, nPlot: int,
                                   m: seq<seq<Score>>, seen: set<nat>, order: seq<nat>, visited: seq<Cell>, x: Cell)
    requires Scanning(scores, cols, vocab, nPlot, m, seen, order, visited)
    requires nPlot <= |seen| && Ordered(scores, nPlot, seen, visited)
    ensures !FirstMissing(scores, cols, vocab, nPlot, x)
  {
    if InMatrix(scores, x) && x.col !in vocab && (At(scores, x).Finite? || x == Cell(0, 0)) {
      ConsumedBeforeMissing(scores, cols, vocab, nPlot, m, seen, order, visited, x);
      SubsetCard(seen, RowsOf(Earlier(scores, x)));
    }
  }

  /**
    The cells a completed scan consumed, in order: the finite cells of the
    matrix in argmin order, up to and including the first cell of the last
    row collected (the +inf cell (0, 0) when the finite cells ran out).
   */
  ghost predicate ScanTrace(scores: seq<seq<Score>>, nPlot: int, visited: seq<Cell>)
  {
    && (nPlot <= 0 ==> visited == [])
    && (nPlot > 0 ==>
          && EndsOnNewRow(visited)
          && InMatrix(scores, visited[|visited| - 1])
          && (At(scores, visited[|visited| - 1]).Finite? || visited[|visited| - 1] == Cell(0, 0))
          && (forall i, j :: 0 <= i < j < |visited| ==>
                InMatrix(scores, visited[i]) && InMatrix(scores, visited[j]) &&
                CellBefore(scores, visited[i], visited[j]))
          && (forall c :: InMatrix(scores, c) ==>
                (c in visited <==>
                   c == visited[|visited| - 1] ||
                   (At(scores, c).Finite? && CellBefore(scores, c, visited[|visited| - 1])))))
  }

  lemma FinishTrace(scores: seq<seq<Score>>, nPlot: int, seen: set<nat>, visited: seq<Cell>)
    requires 0 < nPlot <= |seen| && Ordered(scores, nPlot, seen, visited)
    ensures ScanTrace(scores, nPlot, visited)
  {
    var last := visited[|visited| - 1];
    forall c | InMatrix(scores, c)
      ensures c in visited <==> c == last || (At(scores, c).Finite? && CellBefore(scores, c, last))
    {
      if c in visited && c != last {
        var i :| 0 <= i < |visited| && visited[i] == c;
        assert CellBefore(scores, visited[i], visited[|visited| - 1]);
      }
    }
  }

  /**
    `positions` holds exactly `nPlot` rows (none when `nPlot <= 0`), in
    ascending order, and each of them comes before every row left out: they
    are the rows with the smallest minima, ties going to the earlier row.
   */
  ghost predicate LowestRows(scores: seq<seq<Score>>, nPlot: int, positions: seq<nat>)
  {
    && |positions| == (if nPlot > 0 then nPlot else 0)
    && StrictlyIncreasing(positions)
    && (forall k :: 0 <= k < |positions| ==> positions[k] < |scores|)
    && (forall p: nat, q: nat :: p in positions && q < |scores| && q !in positions ==>
          p < |scores| && RowBefore(scores, p, q))
  }

  /** Two nonempty ascending sequences with the same elements share their head and their tail's elements. */
  lemma SortedTails(a: seq<nat>, b: seq<nat>)
    requires StrictlyIncreasing(a) && StrictlyIncreasing(b)
    requires forall x :: x in a <==> x in b
    requires |a| > 0 && |b| > 0
    ensures a[0] == b[0]
    ensures forall x :: x in a[1..] <==> x in b[1..]
  {
    assert a[0] in a && b[0] in b;
    assert a[0] == b[0] by {
      var i :| 0 <= i < |b| && b[i] == a[0];
      var j :| 0 <= j < |a| && a[j] == b[0];
      assert b[0] <= b[i] && a[0] <= a[j];
    }
    forall x ensures x in a[1..] <==> x in b[1..] {
      if x in a[1..] {
        var i :| 0 <= i < |a| - 1 && a[1..][i] == x;
        assert x in b && x != b[0] by { assert a[0] < a[i + 1]; }
        var k :| 0 <= k < |b| && b[k] == x;
        assert b[1..][k - 1] == x;
      }
      if x in b[1..] {
        var i :| 0 <= i < |b| - 1 && b[1..][i] == x;
        assert x in a && x != a[0] by { assert b[0] < b[i + 1]; }
        var k :| 0 <= k < |a| && a[k] == x;
        assert a[1..][k - 1] == x;
      }
    }
  }

  /** Two ascending sequences with the same elements are the same sequence. */
  lemma {:induction false} SortedUnique(a: seq<nat>, b: seq<nat>)
    requires StrictlyIncreasing(a) && StrictlyIncreasing(b)
    requires forall x :: x in a <==> x in b
    ensures a == b
    decreases |a|
  {
    var elems := set x | x in a;
    StrictlyIncreasingCard(a, elems);
    StrictlyIncreasingCard(b, elems);
    if |a| > 0 {
      SortedTails(a, b);
      SortedUnique(a[1..], b[1..]);
      assert a == [a[0]] + a[1..] && b == [b[0]] + b[1..];
    }
  }

  /** Of two sets of equal size, one holding an element the other lacks also lacks one of the other's. */
  lemma OutsideExists<T>(ps: set<T>, qs: set<T>, x: T)
    requires |ps| == |qs| && x in ps
    ensures x !in qs ==> exists y :: y in qs && y !in ps
  {
    if x !in qs && qs <= ps - {x} {
      SubsetCard(qs, ps - {x});
      RemoveOne(ps, x);
    }
  }

  /** A row of one lowest-row choice is in every other: the rows left out all come after it. */
  lemma LowestRowsShared(scores: seq<seq<Score>>, nPlot: int, p: seq<nat>, q: seq<nat>, x: nat)
    requires LowestRows(scores, nPlot, p) && LowestRows(scores, nPlot, q) && x in p
    ensures x in q
  {
    var ps, qs := set v | v in p, set v | v in q;
    StrictlyIncreasingCard(p, ps);
    StrictlyIncreasingCard(q, qs);
    OutsideExists(ps, qs, x);
    forall y | y in qs && y !in ps ensures x in q {
      assert y < |scores|;
      assert RowBefore(scores, x, y);
    }
  }

  /** The rows the selection settles on are unique: row order admits no ties. */
  lemma LowestRowsUnique(scores: seq<seq<Score>>, nPlot: int, p: seq<nat>, q: seq<nat>)
    requires LowestRows(scores, nPlot, p) && LowestRows(scores, nPlot, q)
    ensures p == q
  {
    forall x ensures x in p <==> x in q {
      if x in p {
        LowestRowsShared(scores, nPlot, p, q, x);
      }
      if x in q {
        LowestRowsShared(scores, nPlot, q, p, x);
      }
    }
    SortedUnique(p, q);
  }

  /**
    `after` is `scores` with exactly the visited cells set to +inf; every
    visited cell lies in a chosen row, and the first minimum of every chosen
    row was visited. This is `Overwritten` restated for callers: over the
    returned sorted positions rather than the scan's set of collected rows,
    and without the scan's own bookkeeping.
   */
  ghost predicate ConsumedCells(scores: seq<seq<Score>>, cols: nat, positions: seq<nat>,
                                visited: seq<Cell>, after: seq<seq<Score>>)
  {
    && |after| == |scores| && Rectangular(after, cols)
    && (forall row, c :: 0 <= row < |scores| && 0 <= c < cols ==>
          row < |after| && c < |after[row]| && row < |scores| && c < |scores[row]| &&
          after[row][c] == (if Cell(row, c) in visited then PosInf else scores[row][c]))
    && (forall v :: v in visited ==> v.row in positions && v.col < cols)
    && (forall p :: p in positions ==>
          p < |scores| && |scores[p]| > 0 && Cell(p, FirstMin(scores[p])) in visited)
  }

  /**
    The `Lowest score` lines: none unless verbose; otherwise one per chosen
    row, numbered from 1 in the order the rows were collected, each naming
    the symbol of its row's first-minimum category and the 1-based position.
    This is `Logged` restated for callers: it speaks of the returned sorted
    positions instead of the scan's collection order, which is not returned.
   */
  ghost predicate LogLines(scores: seq<seq<Score>>, vocab: map<nat, string>, verbose: bool,
                           positions: seq<nat>, log: seq<LogEntry>)
  {
    && (!verbose ==> log == [])
    && (verbose ==> |log| == |positions|)
    && (verbose ==> forall k :: 0 <= k < |log| ==>
          && log[k].rank == k + 1
          && 1 <= log[k].position <= |scores|
          && log[k].position - 1 in positions
          && |scores[log[k].position - 1]| > 0
          && FirstMin(scores[log[k].position - 1]) in vocab
          && log[k].symbol == vocab[FirstMin(scores[log[k].position - 1])])
    && (verbose ==> forall a, b :: 0 <= a < b < |log| ==>
          && 1 <= log[a].position <= |scores|
          && 1 <= log[b].position <= |scores|
          && RowBefore(scores, log[a].position - 1, log[b].position - 1))
  }

  lemma FinishRows(scores: seq<seq<Score>>, cols: nat, vocab: map<nat, string>, nPlot: int,
                   seen: set<nat>, order: seq<nat>, visited: seq<Cell>, positions: seq<nat>)
    requires 0 < nPlot && Collected(scores, cols, vocab, seen, order, visited)
    requires nPlot <= |seen| && |order| <= nPlot
    requires StrictlyIncreasing(positions) && (forall x :: x in positions <==> x in seen) && |positions| == |seen|
    ensures LowestRows(scores, nPlot, positions)
  {
    forall k | 0 <= k < |positions| ensures positions[k] < |scores| {
      assert positions[k] in seen;
    }
    forall p: nat, q: nat | p in positions && q < |scores| && q !in positions
      ensures p < |scores| && RowBefore(scores, p, q)
    {
      var a :| 0 <= a < |order| && order[a] == p;
    }
  }

  lemma FinishCells(scores: seq<seq<Score>>, cols: nat, vocab: map<nat, string>, m: seq<seq<Score>>,
                    seen: set<nat>, order: seq<nat>, visited: seq<Cell>, positions: seq<nat>)
    requires Overwritten(scores, cols, vocab, m, seen, visited)
    requires Collected(scores, cols, vocab, seen, order, visited)
    requires forall x :: x in positions <==> x in seen
    ensures ConsumedCells(scores, cols, positions, visited, m)
  {
    forall p | p in positions ensures p < |scores| && |scores[p]| > 0 && Cell(p, FirstMin(scores[p])) in visited {
      var a :| 0 <= a < |order| && order[a] == p;
    }
  }

  lemma FinishLog(scores: seq<seq<Score>>, cols: nat, vocab: map<nat, string>, verbose: bool,
                  seen: set<nat>, order: seq<nat>, visited: seq<Cell>, positions: seq<nat>, log: seq<LogEntry>)
    requires Collected(scores, cols, vocab, seen, order, visited)
    requires verbose ==> Logged(scores, vocab, order, log)
    requires !verbose ==> log == []
    requires (forall x :: x in positions <==> x in seen) && |positions| == |seen|
    ensures LogLines(scores, vocab, verbose, positions, log)
  {
    if verbose {
      forall k | 0 <= k < |log|
        ensures && log[k].rank == k + 1
                && 1 <= log[k].position <= |scores|
                && log[k].position - 1 == order[k]
                && log[k].position - 1 in positions
                && |scores[log[k].position - 1]| > 0
                && FirstMin(scores[log[k].position - 1]) in vocab
                && log[k].symbol == vocab[FirstMin(scores[log[k].position - 1])]
      {
        assert order[k] in seen;
      }
      forall a, b | 0 <= a < b < |log|
        ensures && 1 <= log[a].position <= |scores|
                && 1 <= log[b].position <= |scores|
                && RowBefore(scores, log[a].position - 1, log[b].position - 1)
      {
        assert log[a].position - 1 == order[a] && log[b].position - 1 == order[b];
      }
    }
  }

  /** Once enough rows are collected, the scan state gives the three outcome properties. */
  lemma Finish(scores: seq<seq<Score>>, cols: nat, vocab: map<nat, string>, nPlot: int, verbose: bool,
               m: seq<seq<Score>>, seen: set<nat>, order: seq<nat>, visited: seq<Cell>, log: seq<LogEntry>,
               positions: seq<nat>)
    requires 0 < nPlot <= |seen|
    requires Scanning(scores, cols, vocab, nPlot, m, seen, order, visited)
    requires verbose ==> Logged(scores, vocab, order, log)
    requires !verbose ==> log == []
    requires StrictlyIncreasing(positions) && (forall x :: x in positions <==> x in seen) && |positions| == |seen|
    ensures LowestRows(scores, nPlot, positions)
    ensures ConsumedCells(scores, cols, positions, visited, m)
    ensures LogLines(scores, vocab, verbose, positions, log)
  {
    FinishRows(scores, cols, vocab, nPlot, seen, order, visited, positions);
    FinishCells(scores, cols, vocab, m, seen, order, visited, positions);
    FinishLog(scores, cols, vocab, verbose, seen, order, visited, positions, log);
  }

  /**
    The scan loop itself: take the minimum, overwrite it, look up its
    symbol, and record its row if new, until `nPlot` rows are collected or a
    category without a symbol turns up.
   */
  method Scan(scores: seq<seq<Score>>, cols: nat, nPlot: int, vocab: map<nat, string>, verbose: bool)
    returns (missing: Option<nat>, m: seq<seq<Score>>, seen: set<nat>, visited: seq<Cell>, log: seq<LogEntry>,
             ghost order: seq<nat>, ghost stuck: Cell)
    requires |scores| > 0 && cols > 0 && Rectangular(scores, cols)
    requires 0 < nPlot <= Reachable(scores)
    ensures missing.Some? ==> missing.value < cols && missing.value !in vocab
    ensures missing.Some? ==> FirstMissing(scores, cols, vocab, nPlot, stuck) && stuck.col == missing.value
    ensures missing.None? ==> nPlot <= |seen| && Scanning(scores, cols, vocab, nPlot, m, seen, order, visited)
    ensures missing.None? ==> Ordered(scores, nPlot, seen, visited)
    ensures missing.None? ==> (verbose ==> Logged(scores, vocab, order, log)) && (!verbose ==> log == [])
  {
    m, seen, visited, log, order, stuck := scores, {}, [], [], [], Cell(0, 0);
    ScanStart(scores, cols, vocab, nPlot);
    while |seen| < nPlot
      invariant Scanning(scores, cols, vocab, nPlot, m, seen, order, visited)
      invariant Ordered(scores, nPlot, seen, visited)
      invariant verbose ==> Logged(scores, vocab, order, log)
      invariant !verbose ==> log == []
      decreases |FiniteCells(m)|, nPlot - |seen|
    {
      var (cell, m') := Consume(m, cols);
      var i := cell.row;
      if cell.col !in vocab {
        MissingAtPick(scores, cols, vocab, nPlot, m, seen, order, visited, cell, m');
        return Some(cell.col), m, seen, visited, log, order, cell;
      }
      if i !in seen {
        OrderedNewRow(scores, cols, vocab, nPlot, m, seen, order, visited, cell, m');
        ScanNewRow(scores, cols, vocab, nPlot, m, seen, order, visited, cell, m');
        if verbose {
          LogAppend(scores, vocab, order, log, i, |seen + {i}|, vocab[cell.col]);
        }
        seen := seen + {i};
        order := order + [i];
        if verbose {
          log := log + [LowestScore(|seen|, vocab[cell.col], i + 1)];
        }
      } else {
        OrderedSeenRow(scores, cols, vocab, nPlot, m, seen, order, visited, cell, m');
        ScanSeenRow(scores, cols, vocab, nPlot, m, seen, order, visited, cell, m');
      }
      m := m';
      visited := visited + [cell];
    }
    missing := None;
  }

  /**
    The automatic position choice of the residue overlay. It needs the loop
    to end: `nPlot` may not exceed the number of rows the scan can reach.
   */
  method SelectLowest(scores: seq<seq<Score>>, cols: nat, nPlot: int, vocab: map<nat, string>, verbose: bool)
    returns (r: Result<Choice>)
    requires Rectangular(scores, cols)
    requires nPlot <= 0 || |scores| == 0 || cols == 0 || nPlot <= Reachable(scores)
    // errors: argmin of an empty matrix, or a consumed cell whose category has no symbol
    ensures r == Err(EmptyScores) <==> 0 < nPlot && (|scores| == 0 || cols == 0)
    ensures r.Err? ==> (r.error == EmptyScores ||
              (r.error.MissingSymbol? && r.error.category < cols && r.error.category !in vocab))
    ensures (forall c :: 0 <= c < cols ==> c in vocab) ==> r.Ok? || r == Err(EmptyScores)
    ensures r.Ok? ==> LowestRows(scores, nPlot, r.value.positions)
    ensures r.Ok? ==> ConsumedCells(scores, cols, r.value.positions, r.value.visited, r.value.after)
    ensures r.Ok? ==> LogLines(scores, vocab, verbose, r.value.positions, r.value.log)
    // the cells consumed, in order, and the cell a missing symbol stops the scan at
    ensures r.Ok? ==> ScanTrace(scores, nPlot, r.value.visited)
    ensures r.Ok? ==> forall v :: v in r.value.visited ==> v.col in vocab
    ensures r.Err? && r.error.MissingSymbol? ==>
              exists x :: FirstMissing(scores, cols, vocab, nPlot, x) && x.col == r.error.category
    ensures (exists x :: FirstMissing(scores, cols, vocab, nPlot, x)) ==> r.Err? && r.error.MissingSymbol?
  {
    if nPlot <= 0 {
      return Ok(Choice([], [], [], scores));
    }
    if |scores| == 0 || cols == 0 {
      return Err(EmptyScores);
    }
    var missing, m, seen, visited, log, order, stuck := Scan(scores, cols, nPlot, vocab, verbose);
    if missing.Some? {
      return Err(MissingSymbol(missing.value));
    }
    var positions := SortedRows(seen, |scores|);
    Finish(scores, cols, vocab, nPlot, verbose, m, seen, order, visited, log, positions);
    FinishTrace(scores, nPlot, seen, visited);
    forall x ensures !FirstMissing(scores, cols, vocab, nPlot, x) {
      CompletedScanMissesNothing(scores, cols, vocab, nPlot, m, seen, order, visited, x);
    }
    return Ok(Choice(positions, visited, log, m));
  }
}
